=== FILE: README.md ===
# EduHub submission and course core, modelled in Dafny

This project models the service layer of the EduHub backend:

- **Course directory.** Two versions exist.
  - The current one keeps courses with a roster, enrollment rows and student documents.
  - The older one (`backend/`) keeps courses with only an enrollment counter.
- **Assignment catalog.** Creation, partial updates (`{ ...existing, ...patch }`), soft deletion, and the ordered listings.
- **Submission ledger.** Covers:
  - the gates of `createSubmission` (assignment, course, enrollment, format, numbering, lateness);
  - grading, status changes and soft deletion;
  - the `submissionCount` refresh;
  - the paged and student listings.
- **Attachment rules.** File validation, blob naming, the file-count check, folder paths and connection-string parsing from the blob storage service. The multer middleware adds its MIME filter, error classification and request helpers.

The document store is modelled in memory:

- Containers that are read by point lookup are `map`s keyed by id. These are courses and students.
- Queried containers are `seq`s in stored order. These are enrollments, assignments and submissions.
- Each service becomes a `class` whose methods update these fields. Every method is proved against a pure function of the old state. The invariants the services rely on are proved as lemmas and kept by every method:
  - counters agree with rows;
  - rosters, rows and student documents agree;
  - ids and submission numbers are distinct;
  - grades are in range.
- The clock (`now`), the generated uuids, the container URL and the environment variables are parameters.

Modules: `Common` (Option, Result), `Text` (trim, split/join, decimal digits), `Query` (WHERE filter, stable ORDER BY), `Records` (documents and error kinds), `EnrollmentTable`, `CourseDirectory`, `LegacyCourseDirectory`, `AssignmentCatalog`, `SubmissionRules`, `SubmissionLedger`, `BlobStorage`, `UploadMiddleware`.

Where the declared types and the code disagree, the model follows the code:

- `Student.enrolledCourses` is declared as a list of objects. `createOrUpdateStudent` pushes and compares bare course ids, so the model stores ids.
- `createCourse` copies whatever `assignments` the caller passes.
- `Course.assignments` is declared as a list of assignment references (src/models/Course.ts:28). Only `createCourse` writes it, by copying the caller's list; creating, updating or deleting an assignment never touches it (src/services/assignmentService.ts:40-64). The model therefore keeps it as stored data that nothing updates.
- `getStudentById` returns the stored student document as read (src/services/courseService.ts:194-205), with no conversion of older document shapes.
- `validateFileRequirements` lets an unknown format through. `validateSubmissionFormat` refuses it.

## Model

| member | source | states |
|---|---|---|
| CourseDirectory.NewCourse | src/services/courseService.ts:37-46 | a new course carries every caller field unchanged (`CourseDataOf` gives back the input), the fresh id, zero enrollments, an empty roster and both timestamps `now` |
| CourseDirectory.AddToRoster | src/services/courseService.ts:94-102 | a successful enrollment appends exactly one roster entry, raises the counter by one, stamps `updatedAt` and changes nothing else |
| CourseDirectory.WithCourse | src/services/courseService.ts:154-162 | an existing student gains the course id at the end unless it is already present (then the document is unchanged); earlier ids and identity are kept |
| CourseDirectory.UpsertedStudent | src/services/courseService.ts:148-187 | the upserted document holds the course; an absent student is created active with exactly `[courseId]` |
| CourseDirectory.WithCourseIdempotent | src/services/courseService.ts:158-162 | enrolling the same student in the same course twice updates the student document once |
| CourseDirectory.WithCourseKeeps | src/services/courseService.ts:158-159 | an upsert never drops a course the student already had |
| CourseDirectory.DuplicateChecksAgree | src/services/courseService.ts:68-77 | under the directory invariant the row lookup and the roster lookup of enrollStudent give the same answer |
| CourseDirectory.EnrolledStudentsMatchCounter | src/services/courseService.ts:115-128 | under the invariant getEnrolledStudents returns as many rows as `currentEnrollments` and as the roster length |
| CourseDirectory.CreatePreserves | src/services/courseService.ts:37-54 | adding a course under a fresh id keeps the directory invariant |
| CourseDirectory.CountRowsNone | src/services/courseService.ts:115-123 | a course that does not exist has no enrollment rows |
| CourseDirectory.EnrollPreserves | src/services/courseService.ts:56-113 | an enrollment that passed every check keeps counters equal to row counts, within capacity, rows backed by roster and student, and pairs distinct |
| CourseDirectory.EnrollKeepsCounters | src/services/courseService.ts:64-66 | after enrolling, each course's counter still equals its row count and roster length and stays within `maxStudents` |
| CourseDirectory.EnrollKeepsRowsBacked | src/services/courseService.ts:91-106 | the new row is backed by the new roster entry and the upserted student; old rows stay backed |
| CourseDirectory.EnrollKeepsRosterRows | src/services/courseService.ts:91-103 | every roster entry, old and new, has its enrollment row |
| CourseDirectory.Directory.constructor | src/services/courseService.ts:5-8 | an empty directory satisfies the invariant |
| CourseDirectory.Directory.GetCourse | src/services/courseService.ts:24-35 | the stored course if the id is present, none otherwise |
| CourseDirectory.Directory.GetStudent | src/services/courseService.ts:194-205 | the stored student if the id is present, none otherwise |
| CourseDirectory.Directory.EnrolledStudents | src/services/courseService.ts:115-128 | exactly the rows of the course whose status is enrolled |
| CourseDirectory.Directory.CreateCourse | src/services/courseService.ts:37-54 | stores `NewCourse` under the fresh id, touches nothing else, keeps the invariant |
| CourseDirectory.Directory.CreateOrUpdateStudent | src/services/courseService.ts:148-192 | the student map gains `UpsertedStudent` and nothing else changes |
| CourseDirectory.Directory.EnrollStudent | src/services/courseService.ts:56-113 | "Course not found", "Course is full", "already enrolled" (row or roster) in this order, with no change on error; a request passing all four checks succeeds with one row, one roster entry, counter + 1 and the student upserted; the invariant is kept |
| EnrollmentTable.FindEnrollment | src/services/courseService.ts:130-146 | getEnrollment finds a row exactly when one exists for the (course, student) pair and returns such a row |
| EnrollmentTable.EnrolledRows | src/services/courseService.ts:117-123 | the rows of the course with status enrolled, no more and no fewer |
| EnrollmentTable.CountRowsAppend | src/services/courseService.ts:91 | storing a row raises its own course's row count by one and no other course's |
| EnrollmentTable.HasEnrollmentAppend | src/services/courseService.ts:91 | after storing a row the pair lookup sees the old rows and the new one |
| EnrollmentTable.PairsDistinctAppend | src/services/courseService.ts:69-72 | a row for a pair that has none keeps every pair enrolled at most once |
| EnrollmentTable.EnrolledRowsCount | backend/src/services/courseService.ts:98-106 | when every row is enrolled, getEnrolledStudents returns all of a course's rows |
| LegacyCourseDirectory.NewLegacyCourse | backend/src/services/courseService.ts:36-44 | a new course carries every caller field unchanged (`LegacyDataOf` gives back the input), the fresh id, a zero counter and both timestamps `now` |
| LegacyCourseDirectory.LegacyCountRowsNone | backend/src/services/courseService.ts:98-106 | a course that does not exist has no rows |
| LegacyCourseDirectory.LegacyCreatePreserves | backend/src/services/courseService.ts:36-52 | creating a course keeps counters equal to row counts |
| LegacyCourseDirectory.LegacyEnrollPreserves | backend/src/services/courseService.ts:54-96 | a successful enrollment keeps counters equal to row counts, within capacity, and pairs distinct |
| LegacyCourseDirectory.LegacyEnrolledStudentsMatchCounter | backend/src/services/courseService.ts:98-111 | under the invariant getEnrolledStudents returns `currentEnrollments` rows |
| LegacyCourseDirectory.LegacyDirectory.constructor | backend/src/services/courseService.ts:5-7 | an empty directory satisfies the invariant |
| LegacyCourseDirectory.LegacyDirectory.CreateCourse | backend/src/services/courseService.ts:36-52 | stores the new course under the fresh id; rows unchanged; invariant kept |
| LegacyCourseDirectory.LegacyDirectory.EnrollStudent | backend/src/services/courseService.ts:54-96 | "Course not found", "Course is full", "already enrolled" (rows only) in order with no change; a request passing the three checks succeeds with one enrolled row with progress 0 and counter + 1 |
| AssignmentCatalog.NewAssignment | src/services/assignmentService.ts:48-53 | the stored document is the caller's data with the fresh id and both timestamps `now` |
| AssignmentCatalog.Merge | src/services/assignmentService.ts:73-78 | the merged document always carries the looked-up id and `updatedAt = now` |
| AssignmentCatalog.MergeEmpty | src/services/assignmentService.ts:73-78 | an empty patch changes only `updatedAt` |
| AssignmentCatalog.MergeKeepsId | src/services/assignmentService.ts:76 | a patch carrying another id cannot rename the assignment |
| AssignmentCatalog.MergeOverrides | src/services/assignmentService.ts:73-78 | for every property, a present patch value wins and an absent one keeps the stored value; id and updatedAt are forced to the looked-up id and `now` |
| AssignmentCatalog.MergeIdempotent | src/services/assignmentService.ts:66-92 | applying the same update twice equals applying it once |
| AssignmentCatalog.MergeThen | src/services/assignmentService.ts:66-92 | two successive updates equal one update with the combined patch, the later one winning |
| AssignmentCatalog.DeactivateOnlyClearsFlag | src/services/assignmentService.ts:101-102 | deleteAssignment only clears `isActive` (and stamps the update time) |
| AssignmentCatalog.CountPatchOnlySetsCount | src/services/submissionService.ts:373 | the count refresh only sets `submissionCount` (and the update time) |
| AssignmentCatalog.IndexOfId | src/services/assignmentService.ts:27-33 | the position of the first assignment with the id, or none when no row has it |
| AssignmentCatalog.IndexOfIdReplace | src/services/assignmentService.ts:80-82 | replacing the found row by one with the same id keeps it the first match |
| AssignmentCatalog.FindById | src/services/assignmentService.ts:24-38 | found exactly when some stored assignment has the id, active or not, and the result has that id |
| AssignmentCatalog.UpdateKeepsIdsDistinct | src/services/assignmentService.ts:66-92 | an update keeps assignment ids distinct |
| AssignmentCatalog.CourseAssignmentsSpec | src/services/assignmentService.ts:9-22 | the course listing is exactly the course's active assignments, each as often as stored, by ascending due date |
| AssignmentCatalog.AllAssignmentsSpec | src/services/assignmentService.ts:112-124 | the full listing is exactly the active assignments, each as often as stored, by ascending due date |
| AssignmentCatalog.DeletedIsUnlisted | src/services/assignmentService.ts:94-110 | a soft-deleted assignment leaves both listings but is still found by id |
| AssignmentCatalog.Catalog.constructor | src/services/assignmentService.ts:5-7 | an empty catalog with distinct ids |
| AssignmentCatalog.Catalog.CreateAssignment | src/services/assignmentService.ts:40-64 | "Course not found" with no change when the course is missing; otherwise appends `NewAssignment` |
| AssignmentCatalog.Catalog.UpdateAssignment | src/services/assignmentService.ts:66-92 | "Assignment not found" with no change for an unknown id; otherwise replaces the first match by the merge, ids stay distinct |
| AssignmentCatalog.Catalog.DeleteAssignment | src/services/assignmentService.ts:94-110 | "Assignment not found" for an unknown id; otherwise the row is deactivated and nothing else changes |
| Query.Filter | src/services/assignmentService.ts:12 | the WHERE filter keeps exactly the satisfying rows |
| Query.FilterAppend | src/services/submissionService.ts:107-113 | filtering distributes over appending a row |
| Query.Insert | src/services/assignmentService.ts:12 | insertion into a sorted listing keeps it sorted and is a permutation plus the new row |
| Query.SortBy | src/services/assignmentService.ts:12 | ORDER BY yields a sorted permutation of its input |
| Query.SortByMembers | src/services/assignmentService.ts:115 | ORDER BY keeps exactly the rows it was given |
| SubmissionRules.HasTextIffNotBlank | src/services/submissionService.ts:299 | text counts exactly when it holds a non-whitespace character |
| SubmissionRules.FormatCheck | src/services/submissionService.ts:298-321 | the only errors of validateSubmissionFormat are the four format messages |
| SubmissionRules.FormatCheckAccepts | src/services/submissionService.ts:302-320 | 'text' needs text, 'file' needs files, 'both' needs either, any other format is refused with "Invalid submission format" |
| SubmissionRules.FormatCheckMonotone | src/services/submissionService.ts:302-317 | submitting more never turns an accepted submission into a refused one |
| SubmissionRules.BothIsEither | src/services/submissionService.ts:313-317 | 'both' accepts exactly what 'text' or 'file' accepts |
| SubmissionRules.PriorSubmissions | src/services/submissionService.ts:326-334 | the rows read are exactly the student's active submissions to the assignment |
| SubmissionRules.MaxNumber | src/services/submissionService.ts:327-348 | the head of the DESC-ordered query holds the largest number |
| SubmissionRules.NextNumber | src/services/submissionService.ts:323-357 | 1 for a first submission; a repeat is refused unless allowed; otherwise one more than the largest prior number, above every prior number |
| SubmissionRules.NextNumberPositive | src/services/submissionService.ts:336-348 | a new number is at least 1 when the stored ones are |
| SubmissionRules.LateCheck | src/services/submissionService.ts:48-51 | refused exactly when `now > dueDate` and late submissions are not allowed |
| SubmissionRules.CountActiveCountsMatches | src/services/submissionService.ts:362-368 | the count equals the number of rows the `assignmentId = @assignmentId AND isActive = true` filter selects |
| SubmissionRules.CountActive | src/services/submissionService.ts:362-368 | the count of active rows of the assignment never exceeds the row count |
| SubmissionRules.CountActiveAppend | src/services/submissionService.ts:74-78 | storing a row raises its assignment's count exactly when it is active |
| SubmissionRules.CountActiveReplace | src/services/submissionService.ts:279-284 | replacing a row changes the count by exactly what the old and new row contribute |
| SubmissionRules.DeactivateLowersCount | src/services/submissionService.ts:277-284 | a soft delete lowers its assignment's count by exactly one |
| SubmissionRules.FindActive | src/services/submissionService.ts:147-161 | the first active row with the id (no earlier row is an active row with it), or none when every row with the id is inactive |
| SubmissionRules.Window | src/services/submissionService.ts:126 | OFFSET/LIMIT returns at most `limit` rows, the rows starting at the offset, in order |
| SubmissionRules.AssignmentMatches | src/services/submissionService.ts:107-113 | the counted rows are exactly the active rows of the assignment, with the status when one is given |
| SubmissionRules.AssignmentOrdered | src/services/submissionService.ts:107-115 | the ordered rows are the matches, each as often as it occurs (same multiset), sorted by descending `submittedAt` |
| SubmissionRules.AssignmentSubmissions | src/services/submissionService.ts:92-142 | the returned page and limit are the requested ones, defaulting to 1 and 50 when absent or 0; total counts all matches; the rows are the window of at most `limit` rows at offset `(page-1)*limit` of the newest-first ordering |
| SubmissionRules.AssignmentPageNewestFirst | src/services/submissionService.ts:115-130 | every page is ordered newest first |
| SubmissionRules.AssignmentPageMatches | src/services/submissionService.ts:107-113 | every listed row is an active row of the assignment, with the requested status when one is given |
| SubmissionRules.WindowNewestFirst | src/services/submissionService.ts:115-126 | a page cut from a newest-first ordering is newest first |
| SubmissionRules.WindowMembers | src/services/submissionService.ts:126 | a page holds only rows of the ordering it is cut from |
| SubmissionRules.EveryMatchOnItsPage | src/services/submissionService.ts:103-130 | the k-th newest match appears on page `k / limit + 1` at position `k % limit` |
| SubmissionRules.EveryMatchIsListed | src/services/submissionService.ts:103-130 | for any page size of at least one, every matching row is listed on some page |
| SubmissionRules.PageArithmetic | src/services/submissionService.ts:105 | the offset of page `k / limit + 1` plus `k % limit` is k |
| SubmissionRules.StudentSubmissions | src/services/submissionService.ts:166-188 | the student listing is newest first and holds the student's active rows (of the course, when given), each as often as stored (same multiset) |
| SubmissionRules.StudentSubmissionsMembers | src/services/submissionService.ts:168-176 | it holds exactly the student's active rows, of the course when one is given |
| SubmissionRules.InactiveIsHidden | src/services/submissionService.ts:107-188 | a soft-deleted row is never the row the id lookup returns, and is absent from both listings and from the numbering query |
| SubmissionLedger.NewSubmission | src/services/submissionService.ts:54-71 | a new submission is 'submitted', active, ungraded, copies the assignment's course and maxPoints, defaults attachments to `[]`, and is late exactly when `now > dueDate` |
| SubmissionLedger.CreateOutcome | src/services/submissionService.ts:15-87 | a created submission's assignment exists and is active, its course exists and lists the student, the format holds, lateness is allowed, and its number exceeds every prior active number |
| SubmissionLedger.CreateRefusals | src/services/submissionService.ts:24-51 | the refusals come in the order of the gates: not found/inactive, course, enrollment, format, multiple, late; a request that passes every gate is accepted, as `NewSubmission` with the next number; a first submission gets number 1 |
| SubmissionLedger.LatePolicy | src/services/submissionService.ts:47-51 | "Late submissions are not allowed" is returned only for a submission after the due date to an assignment without the late flag; a stored late submission is marked late and its assignment allows late submissions |
| SubmissionLedger.CreatePreserves | src/services/submissionService.ts:53-75 | storing a created submission keeps ids unique, active numbers distinct and positive, grades in range |
| SubmissionLedger.CreatedRow | src/services/submissionService.ts:54-71 | a created submission is ungraded, active, 'submitted', and numbered at least 1 |
| SubmissionLedger.AppendPreserves | src/services/submissionService.ts:74 | storing an ungraded row with a fresh id and a number above its student's active numbers keeps the ledger invariant |
| SubmissionLedger.ReplacePreserves | src/services/submissionService.ts:220-222 | replacing a row by one with the same identity and numbering keeps the ledger invariant |
| SubmissionLedger.GradedCopy | src/services/submissionService.ts:210-218 | grading sets grade, feedback, gradedAt, gradedBy, status 'graded' and updatedAt, and nothing else |
| SubmissionLedger.GradeBounds | src/services/submissionService.ts:205 | both grade bounds, 0 and maxPoints, are accepted and nothing outside them |
| SubmissionLedger.ReportedGradeFailure | src/services/submissionService.ts:226-231 | the catch block passes "Submission not found" on and replaces every other error by "Failed to grade submission" |
| SubmissionLedger.GradeOutcomeAsWritten | src/services/submissionService.ts:193-233 | as written, an unknown id is "Submission not found", only in-range grades succeed, and an in-range grade on an active row yields the graded copy |
| SubmissionLedger.GradeRangeErrorMasked | src/services/submissionService.ts:205-231 | as written, a grade outside [0, maxPoints] on an active row (a grade above maxPoints passes the route validation) reaches the caller as "Failed to grade submission" and never as the range message |
| SubmissionLedger.WithStatus | src/services/submissionService.ts:245-249 | a status update changes only status and updatedAt |
| SubmissionLedger.DeleteKeepsStatus | src/services/submissionService.ts:270-281 | the interim status write is overwritten by the stale copy: deletion leaves the stored status as it was |
| SubmissionLedger.Refreshed | src/services/submissionService.ts:359-380 | after the refresh the assignment shows the count, every other assignment is unchanged, ids stay distinct, and an unknown id changes nothing |
| SubmissionLedger.CountAfterCreate | src/services/submissionService.ts:74-78 | after a creation the assignment's count is one more than before |
| SubmissionLedger.CountAfterDelete | src/services/submissionService.ts:277-284 | after a deletion the assignment's count is one less than before |
| SubmissionLedger.Ledger.constructor | src/services/submissionService.ts:7-10 | an empty ledger over the catalog satisfies the invariant |
| SubmissionLedger.Ledger.GetSubmissionById | src/services/submissionService.ts:147-161 | the first active submission with the id, or none |
| SubmissionLedger.Ledger.RefreshSubmissionCount | src/services/submissionService.ts:359-380 | the catalog becomes `Refreshed` with the current active count |
| SubmissionLedger.Ledger.CreateSubmission | src/services/submissionService.ts:15-87 | the result is `CreateOutcome` (refusals and acceptance as `CreateRefusals` states); on error nothing changes; on success one row is appended and the count refreshed; the invariant is kept |
| SubmissionLedger.Ledger.GradeSubmission | src/services/submissionService.ts:193-233 | "Submission not found" for an unknown or inactive id; an out-of-range grade is refused with its range and nothing changes; an in-range grade on an active row succeeds, and the graded copy replaces the row |
| SubmissionLedger.Ledger.UpdateSubmissionStatus | src/services/submissionService.ts:238-263 | "Submission not found", or the row with only status and updatedAt changed |
| SubmissionLedger.Ledger.DeleteSubmission | src/services/submissionService.ts:268-294 | "Submission not found", or the row deactivated with its old status and the count refreshed |
| Text.TrimmedEmptyIffBlank | src/services/submissionService.ts:299 | `trim()` leaves nothing exactly when the text is all whitespace |
| Text.SplitJoin | src/services/blobStorageService.ts:143 | splitting a join of separator-free pieces gives the pieces back |
| Text.JoinSplit | src/services/blobStorageService.ts:143 | joining the pieces of a split gives the text back |
| Text.LastPieceIsLastPart | src/services/blobStorageService.ts:143 | the text after the last separator is the last piece of the split |
| Text.ParseNatToString | src/services/blobStorageService.ts:314-315 | the decimal rendering of a number reads back as that number |
| Text.Pad2Digits | src/services/blobStorageService.ts:315 | `padStart(2, '0')` of a month is two digits that read back as the month |
| BlobStorage.ValidateFile | src/services/blobStorageService.ts:73-125 | valid exactly when size ≤ max and type allowed; size is checked first |
| BlobStorage.DefaultLimitInclusive | src/services/blobStorageService.ts:78-114 | with the defaults exactly 10 MB passes and one byte more fails |
| BlobStorage.ValidateMonotone | src/services/blobStorageService.ts:108-122 | a smaller file or a looser limit or list stays valid |
| BlobStorage.Extension | src/services/blobStorageService.ts:143 | the extension holds no dot, is the last piece of the split, and is the whole name when there is no dot |
| BlobStorage.UploadFile | src/services/blobStorageService.ts:130-185 | refused exactly when validation fails, with that error; otherwise the uuid, the `<uuid>.<extension>` filename, the original name, size, type, and the URL `<container>/<folder or "general">/<filename>` of the blob |
| BlobStorage.FilenameRoundTrip | src/services/blobStorageService.ts:143-146 | the stored filename splits back into the uuid and the extension, and the blob path ends with it |
| BlobStorage.LastPieceAfter | src/services/blobStorageService.ts:146 | the last piece after a separator followed by separator-free text is that text |
| BlobStorage.UploadFiles | src/services/blobStorageService.ts:190-210 | more than maxFiles files are refused before any upload; otherwise every file is uploaded |
| BlobStorage.FirstInvalid | src/services/blobStorageService.ts:202-205 | the position of the first file that fails validation, or none when all pass |
| BlobStorage.UploadAll | src/services/blobStorageService.ts:202-205 | fails with the first invalid file's error, else one result per file, in order |
| BlobStorage.CountBoundInclusive | src/services/blobStorageService.ts:195-200 | exactly maxFiles valid files are accepted |
| BlobStorage.FolderSegments | src/services/blobStorageService.ts:312-325 | root, year, two-digit month and, for assignments and submissions, course id and id |
| BlobStorage.FolderPathSegments | src/services/blobStorageService.ts:317-324 | a folder path splits back into exactly its segments |
| BlobStorage.SegmentsHaveNoSlash | src/services/blobStorageService.ts:312-325 | no segment of a folder path holds a '/' when the course id and id hold none |
| BlobStorage.FolderPathDate | src/services/blobStorageService.ts:313-315 | the year and the month read back from a folder path |
| BlobStorage.UpToSemicolon | src/services/blobStorageService.ts:39-40 | the value runs up to the next ';' and holds none |
| BlobStorage.FindValue | src/services/blobStorageService.ts:39-40 | no value only when the pattern matches nowhere; a found value is non-empty and has no ';' |
| BlobStorage.FindValueFirst | src/services/blobStorageService.ts:39-40 | the leftmost match decides the value |
| BlobStorage.FindValueMissing | src/services/blobStorageService.ts:39-40 | where the pattern matches nowhere there is no value; with FindValue, no value exactly when no match |
| BlobStorage.ContainerName | src/services/blobStorageService.ts:32 | the environment value when set and non-empty, else `edu-attachments` |
| BlobStorage.ParseConnection | src/services/blobStorageService.ts:30-51 | a missing or empty connection string is refused; otherwise the format error arises exactly when the `AccountName=` or the `AccountKey=` value is not found, and a parsed configuration carries the two found values |
| BlobStorage.MissingFieldRefused | src/services/blobStorageService.ts:39-44 | a non-empty connection string in which `AccountName=` or `AccountKey=` is never followed by a value is refused with the format error |
| BlobStorage.ParseConnectionRoundTrip | src/services/blobStorageService.ts:39-47 | a connection string built from an account name and a key parses back to both |
| BlobStorage.AccountNameFound | src/services/blobStorageService.ts:39-46 | the account name is found at the start and runs to the first ';' |
| BlobStorage.AccountKeyFound | src/services/blobStorageService.ts:40-47 | the key is found after the name |
| BlobStorage.NoEarlyKey | src/services/blobStorageService.ts:40 | no `AccountKey=` match starts inside the name part |
| UploadMiddleware.FileFilter | src/middleware/uploadMiddleware.ts:8-43 | a file is kept exactly when its type is on the filter's list, which accepts exactly the storage service's default types; otherwise the message names the type |
| UploadMiddleware.FilterAgreesWithValidation | src/middleware/uploadMiddleware.ts:10-53 | the multer limits equal the storage defaults, and within the size limit the filter agrees with validateFile |
| UploadMiddleware.Classify | src/middleware/uploadMiddleware.ts:60-96 | no error proceeds; every error answers 400 with LIMIT_FILE_SIZE → FILE_TOO_LARGE, LIMIT_FILE_COUNT → TOO_MANY_FILES, LIMIT_UNEXPECTED_FILE → UNEXPECTED_FIELD, other multer errors → UPLOAD_ERROR, other errors → INVALID_FILE_TYPE |
| UploadMiddleware.ClassifyIgnoresHandler | src/middleware/uploadMiddleware.ts:56-188 | single, multiple and mixed uploads agree on proceed, status and code; only messages differ |
| UploadMiddleware.FieldFiles | src/middleware/uploadMiddleware.ts:203-211 | a field map with no entries yields no files |
| UploadMiddleware.FieldFilesMembers | src/middleware/uploadMiddleware.ts:205-210 | a file is collected exactly when some list-valued entry holds it |
| UploadMiddleware.GetUploadedFiles | src/middleware/uploadMiddleware.ts:196-214 | the single file, else the array as is, else the in-order files of the list-valued entries, else nothing |
| UploadMiddleware.HasFilesCollects | src/middleware/uploadMiddleware.ts:191-214 | when hasFiles holds there is a file to collect; outside field maps the converse holds |
| UploadMiddleware.FieldMapNotCounted | src/middleware/uploadMiddleware.ts:191-193 | a fields upload carrying a file still has hasFiles false |
| UploadMiddleware.ValidateFileRequirements | src/middleware/uploadMiddleware.ts:217-254 | only the three requirement messages can be returned, and an unknown format passes |
| UploadMiddleware.RequirementsAgreeWithService | src/middleware/uploadMiddleware.ts:221-251 | on 'text', 'file' and 'both' the middleware and the service's format rule agree |
| UploadMiddleware.UnknownFormatDiverges | src/middleware/uploadMiddleware.ts:224-253 | an unknown format passes the middleware but the service refuses it |
| UploadMiddleware.BlankTextRefused | src/middleware/uploadMiddleware.ts:221-231 | whitespace-only text does not satisfy a 'text' assignment |

## Left out

- Store and SDK failures are not modelled. The in-memory store never fails. The "Failed to …" errors therefore do not arise, and neither does getEnrollment's null-on-error fallback.
- Blob transfer itself is not modelled: SAS generation, upload, delete, existence and metadata calls, and `initialize`. These are SDK calls.
- `uploadUrl` is modelled as the container URL, then "/", then the blob name. The SDK's URL escaping is not modelled.
- The clock, uuid generation and environment variables are parameters. Every `new Date()` of one call reads the same `now`.
- Fresh ids are a `requires` that the id is unused, which stands for the uuid guarantee.
- Concurrency is not modelled. Each operation runs alone, so the read-then-write races of enrollStudent and the `Promise.all` fan-out are not captured.
- Controllers, routes and the multer storage engine are not modelled.
- Partition keys are not modelled.
- SubmissionRules.AssignmentSubmissions: page and limit are `nat`. A negative page or limit, and the store error it would cause, is not modelled.
- `maxStudents` and `currentEnrollments` are integers. Fractional capacities are not modelled.
- Grades are reals, so NaN grades are not modelled.
- BlobStorage.UploadFile: every error, including a validation failure, is rethrown with the "Failed to upload file: " prefix; the model returns the underlying failure without that prefix.
- BlobStorage.ValidateFile: the failure carries the size and the limit, not the two-decimal MB text of the message.
- UploadMiddleware.FileFilter: the multer callback is modelled as its outcome value.
- UploadMiddleware.Classify: message texts are stated only for UPLOAD_ERROR and INVALID_FILE_TYPE. The others are constants per handler.
- Keeping `Course.assignments` in step with the assignments container, and converting older student or course documents, are not modelled, because no code in the modelled services does either.

## Findings

| source | as written | input that shows it | evidently intended | confidence | as-written member | corrected member |
|---|---|---|---|---|---|---|
| src/services/submissionService.ts:205-231 | the catch block rethrows only "Submission not found", so the range error thrown at line 206 is replaced by "Failed to grade submission" | grading an existing active submission of an assignment with maxPoints 100 with grade 150 | the caller receives "Grade must be between 0 and <maxPoints>" | high, not executed | SubmissionLedger.GradeRangeErrorMasked | SubmissionLedger.Ledger.GradeSubmission |

=== FILE: assignment_catalog.dfy ===
/** The assignment catalog of src/services/assignmentService.ts: assignments stored in one
    container, looked up by id across courses, soft-deleted, and listed by due date. */
module AssignmentCatalog {
  import opened Common
  import opened Records
  import opened Query
  import CourseDirectory

  /** The fields of a new assignment that the caller supplies (everything but id and timestamps). */
  datatype AssignmentData = AssignmentData(
    courseId: Id,
    title: string,
    description: string,
    instructions: Option<string>,
    dueDate: Time,
    maxPoints: real,
    assignmentType: AssignmentType,
    isActive: bool,
    createdBy: Id,
    attachments: Option<seq<string>>,
    submissionFormat: SubmissionFormat,
    submissionCount: Option<int>,
    allowLateSubmissions: Option<bool>,
    allowMultipleSubmissions: Option<bool>)

  /** The caller-supplied part of a stored assignment. */
  function DataOf(a: Assignment): AssignmentData
  {
    AssignmentData(a.courseId, a.title, a.description, a.instructions, a.dueDate, a.maxPoints,
      a.assignmentType, a.isActive, a.createdBy, a.attachments, a.submissionFormat, a.submissionCount,
      a.allowLateSubmissions, a.allowMultipleSubmissions)
  }

  /** The document createAssignment stores: the input spread, a fresh id and both timestamps. */
  function NewAssignment(data: AssignmentData, id: Id, now: Time): (a: Assignment)
    ensures DataOf(a) == data
    ensures a.id == id && a.createdAt == now && a.updatedAt == now
  {
    Assignment(id, data.courseId, data.title, data.description, data.instructions, data.dueDate,
      data.maxPoints, data.assignmentType, data.isActive, now, now, data.createdBy, data.attachments,
      data.submissionFormat, data.submissionCount, data.allowLateSubmissions, data.allowMultipleSubmissions)
  }

  /** A Partial<Assignment>: each property is present or absent. */
  datatype AssignmentPatch = AssignmentPatch(
    id: Option<Id>,
    courseId: Option<Id>,
    title: Option<string>,
    description: Option<string>,
    instructions: Option<string>,
    dueDate: Option<Time>,
    maxPoints: Option<real>,
    assignmentType: Option<AssignmentType>,
    isActive: Option<bool>,
    createdAt: Option<Time>,
    updatedAt: Option<Time>,
    createdBy: Option<Id>,
    attachments: Option<seq<string>>,
    submissionFormat: Option<SubmissionFormat>,
    submissionCount: Option<int>,
    allowLateSubmissions: Option<bool>,
    allowMultipleSubmissions: Option<bool>)

  /** The patch with no property. */
  const EmptyPatch := AssignmentPatch(None, None, None, None, None, None, None, None, None, None, None,
    None, None, None, None, None, None)

  /** `{ isActive: false }`, the patch of deleteAssignment. */
  const DeactivatePatch := EmptyPatch.(isActive := Some(false))

  /** `{ submissionCount }`, the patch of the submission-count refresh. */
  function CountPatch(count: int): AssignmentPatch
  {
    EmptyPatch.(submissionCount := Some(count))
  }

  /** A present property wins over the stored value. */
  function Pick<T>(o: Option<T>, v: T): T
  {
    if o.Some? then o.value else v
  }

  /** A present optional property wins over the stored one. */
  function PickOpt<T>(o: Option<T>, v: Option<T>): Option<T>
  {
    if o.Some? then o else v
  }

  /** `{ ...existing, ...patch, id, updatedAt: now }` of updateAssignment. */
  function Merge(a: Assignment, p: AssignmentPatch, id: Id, now: Time): (r: Assignment)
    ensures r.id == id && r.updatedAt == now
  {
    Assignment(id, Pick(p.courseId, a.courseId), Pick(p.title, a.title), Pick(p.description, a.description),
      PickOpt(p.instructions, a.instructions), Pick(p.dueDate, a.dueDate), Pick(p.maxPoints, a.maxPoints),
      Pick(p.assignmentType, a.assignmentType), Pick(p.isActive, a.isActive), Pick(p.createdAt, a.createdAt),
      now, Pick(p.createdBy, a.createdBy), PickOpt(p.attachments, a.attachments),
      Pick(p.submissionFormat, a.submissionFormat), PickOpt(p.submissionCount, a.submissionCount),
      PickOpt(p.allowLateSubmissions, a.allowLateSubmissions),
      PickOpt(p.allowMultipleSubmissions, a.allowMultipleSubmissions))
  }

  /** Two patches applied one after the other: the later one's properties win. */
  function Then(p: AssignmentPatch, q: AssignmentPatch): AssignmentPatch
  {
    AssignmentPatch(PickOpt(q.id, p.id), PickOpt(q.courseId, p.courseId), PickOpt(q.title, p.title),
      PickOpt(q.description, p.description), PickOpt(q.instructions, p.instructions),
      PickOpt(q.dueDate, p.dueDate), PickOpt(q.maxPoints, p.maxPoints),
      PickOpt(q.assignmentType, p.assignmentType), PickOpt(q.isActive, p.isActive),
      PickOpt(q.createdAt, p.createdAt), PickOpt(q.updatedAt, p.updatedAt),
      PickOpt(q.createdBy, p.createdBy), PickOpt(q.attachments, p.attachments),
      PickOpt(q.submissionFormat, p.submissionFormat), PickOpt(q.submissionCount, p.submissionCount),
      PickOpt(q.allowLateSubmissions, p.allowLateSubmissions),
      PickOpt(q.allowMultipleSubmissions, p.allowMultipleSubmissions))
  }

  /** An empty patch changes nothing but the update time. */
  lemma MergeEmpty(a: Assignment, now: Time)
    ensures Merge(a, EmptyPatch, a.id, now) == a.(updatedAt := now)
  {
  }

  /** The stored id is forced: a patch carrying another id cannot rename the assignment. */
  lemma MergeKeepsId(a: Assignment, p: AssignmentPatch, now: Time)
    requires p.id.Some?
    ensures Merge(a, p, a.id, now).id == a.id
    ensures Merge(a, p, a.id, now) == Merge(a, p.(id := None), a.id, now)
  {
  }

  /** Every property present in the patch overrides the stored one and every absent property
      keeps the stored value; only id and updatedAt are forced whatever the patch holds. */
  lemma MergeOverrides(a: Assignment, p: AssignmentPatch, id: Id, now: Time)
    ensures var r := Merge(a, p, id, now);
      && (p.courseId.Some? ==> r.courseId == p.courseId.value) && (p.courseId.None? ==> r.courseId == a.courseId)
      && (p.title.Some? ==> r.title == p.title.value) && (p.title.None? ==> r.title == a.title)
      && (p.description.Some? ==> r.description == p.description.value)
      && (p.description.None? ==> r.description == a.description)
      && (p.instructions.Some? ==> r.instructions == p.instructions)
      && (p.instructions.None? ==> r.instructions == a.instructions)
      && (p.dueDate.Some? ==> r.dueDate == p.dueDate.value) && (p.dueDate.None? ==> r.dueDate == a.dueDate)
      && (p.maxPoints.Some? ==> r.maxPoints == p.maxPoints.value) && (p.maxPoints.None? ==> r.maxPoints == a.maxPoints)
      && (p.assignmentType.Some? ==> r.assignmentType == p.assignmentType.value)
      && (p.assignmentType.None? ==> r.assignmentType == a.assignmentType)
      && (p.isActive.Some? ==> r.isActive == p.isActive.value) && (p.isActive.None? ==> r.isActive == a.isActive)
      && (p.createdAt.Some? ==> r.createdAt == p.createdAt.value) && (p.createdAt.None? ==> r.createdAt == a.createdAt)
      && (p.createdBy.Some? ==> r.createdBy == p.createdBy.value) && (p.createdBy.None? ==> r.createdBy == a.createdBy)
      && (p.attachments.Some? ==> r.attachments == p.attachments)
      && (p.attachments.None? ==> r.attachments == a.attachments)
      && (p.submissionFormat.Some? ==> r.submissionFormat == p.submissionFormat.value)
      && (p.submissionFormat.None? ==> r.submissionFormat == a.submissionFormat)
      && (p.submissionCount.Some? ==> r.submissionCount == p.submissionCount)
      && (p.submissionCount.None? ==> r.submissionCount == a.submissionCount)
      && (p.allowLateSubmissions.Some? ==> r.allowLateSubmissions == p.allowLateSubmissions)
      && (p.allowLateSubmissions.None? ==> r.allowLateSubmissions == a.allowLateSubmissions)
      && (p.allowMultipleSubmissions.Some? ==> r.allowMultipleSubmissions == p.allowMultipleSubmissions)
      && (p.allowMultipleSubmissions.None? ==> r.allowMultipleSubmissions == a.allowMultipleSubmissions)
      && r.id == id && r.updatedAt == now
  {
  }

  /** Applying the same patch twice is the same as applying it once. */
  lemma MergeIdempotent(a: Assignment, p: AssignmentPatch, id: Id, now: Time)
    ensures Merge(Merge(a, p, id, now), p, id, now) == Merge(a, p, id, now)
  {
  }

  /** Two successive updates equal one update with the combined patch. */
  lemma MergeThen(a: Assignment, p: AssignmentPatch, q: AssignmentPatch, id: Id, t1: Time, t2: Time)
    ensures Merge(Merge(a, p, id, t1), q, id, t2) == Merge(a, Then(p, q), id, t2)
  {
  }

  /** deleteAssignment's patch only clears the active flag (and stamps the update time). */
  lemma DeactivateOnlyClearsFlag(a: Assignment, now: Time)
    ensures Merge(a, DeactivatePatch, a.id, now) == a.(isActive := false, updatedAt := now)
  {
  }

  /** The submission-count refresh touches nothing but the count and the update time. */
  lemma CountPatchOnlySetsCount(a: Assignment, count: int, now: Time)
    ensures Merge(a, CountPatch(count), a.id, now) == a.(submissionCount := Some(count), updatedAt := now)
  {
  }

  /** Position of the first stored assignment with this id: the `WHERE c.id = @id` lookup. */
  function IndexOfId(rows: seq<Assignment>, id: Id): (r: Option<nat>)
    ensures r.Some? ==> r.value < |rows| && rows[r.value].id == id
    ensures r.Some? ==> forall k :: 0 <= k < r.value ==> rows[k].id != id
    ensures r.None? ==> forall k :: 0 <= k < |rows| ==> rows[k].id != id
  {
    if rows == [] then None
    else if rows[0].id == id then Some(0)
    else
      var t := IndexOfId(rows[1..], id);
      if t.None? then None else Some(t.value + 1)
  }

  /** Replacing the first row with an id by another row with that id leaves it the first. */
  lemma IndexOfIdReplace(rows: seq<Assignment>, id: Id, x: Assignment)
    requires IndexOfId(rows, id).Some? && x.id == id
    ensures IndexOfId(rows[IndexOfId(rows, id).value := x], id) == IndexOfId(rows, id)
  {
    var i := IndexOfId(rows, id).value;
    var r := IndexOfId(rows[i := x], id);
    assert rows[i := x][i].id == id;
  }

  /** getAssignmentById: the first assignment with this id, active or not. */
  function FindById(rows: seq<Assignment>, id: Id): (r: Option<Assignment>)
    ensures r.Some? <==> exists k :: 0 <= k < |rows| && rows[k].id == id
    ensures r.Some? ==> r.value in rows && r.value.id == id
  {
    var i := IndexOfId(rows, id);
    if i.None? then None else Some(rows[i.value])
  }

  /** Every stored id is distinct. */
  ghost predicate IdsDistinct(rows: seq<Assignment>)
  {
    forall i, j :: 0 <= i < j < |rows| ==> rows[i].id != rows[j].id
  }

  /** Replacing the row found by id with a merge keeps the ids distinct, because the merge forces the id. */
  lemma UpdateKeepsIdsDistinct(rows: seq<Assignment>, id: Id, p: AssignmentPatch, now: Time)
    requires IdsDistinct(rows)
    requires IndexOfId(rows, id).Some?
    ensures IdsDistinct(rows[IndexOfId(rows, id).value := Merge(rows[IndexOfId(rows, id).value], p, id, now)])
  {
  }

  /** getCourseAssignments: the active assignments of the course, by ascending due date. */
  function CourseAssignmentsOf(rows: seq<Assignment>, courseId: Id): seq<Assignment>
  {
    SortBy(Filter(rows, (a: Assignment) => a.courseId == courseId && a.isActive), (a: Assignment) => a.dueDate)
  }

  /** getAllAssignments: every active assignment, by ascending due date. */
  function AllAssignmentsOf(rows: seq<Assignment>): seq<Assignment>
  {
    SortBy(Filter(rows, (a: Assignment) => a.isActive), (a: Assignment) => a.dueDate)
  }

  /** The course listing holds exactly the course's active assignments, each as often as stored,
      ordered by due date. */
  lemma CourseAssignmentsSpec(rows: seq<Assignment>, courseId: Id)
    ensures var r := CourseAssignmentsOf(rows, courseId);
      && (forall i, j :: 0 <= i < j < |r| ==> r[i].dueDate <= r[j].dueDate)
      && (forall a :: a in r <==> a in rows && a.courseId == courseId && a.isActive)
      && multiset(r) == multiset(Filter(rows, (a: Assignment) => a.courseId == courseId && a.isActive))
  {
    var f := Filter(rows, (a: Assignment) => a.courseId == courseId && a.isActive);
    forall a ensures a in CourseAssignmentsOf(rows, courseId) <==> a in f {
      SortByMembers(f, (a: Assignment) => a.dueDate, a);
    }
  }

  /** The full listing holds exactly the active assignments, ordered by due date. */
  lemma AllAssignmentsSpec(rows: seq<Assignment>)
    ensures var r := AllAssignmentsOf(rows);
      && (forall i, j :: 0 <= i < j < |r| ==> r[i].dueDate <= r[j].dueDate)
      && (forall a :: a in r <==> a in rows && a.isActive)
      && multiset(r) == multiset(Filter(rows, (a: Assignment) => a.isActive))
  {
    var f := Filter(rows, (a: Assignment) => a.isActive);
    forall a ensures a in AllAssignmentsOf(rows) <==> a in f {
      SortByMembers(f, (a: Assignment) => a.dueDate, a);
    }
  }

  /** A deleted (inactive) assignment is missing from both listings but still found by id. */
  lemma DeletedIsUnlisted(rows: seq<Assignment>, i: nat)
    requires i < |rows| && !rows[i].isActive
    ensures rows[i] !in AllAssignmentsOf(rows)
    ensures rows[i] !in CourseAssignmentsOf(rows, rows[i].courseId)
    ensures FindById(rows, rows[i].id).Some?
  {
    AllAssignmentsSpec(rows);
    CourseAssignmentsSpec(rows, rows[i].courseId);
  }

  class Catalog {
    var assignments: seq<Assignment>
    const directory: CourseDirectory.Directory

    ghost predicate Valid()
      reads this
    {
      IdsDistinct(assignments)
    }

    constructor (directory: CourseDirectory.Directory)
      ensures Valid() && assignments == [] && this.directory == directory
    {
      assignments := [];
      this.directory := directory;
    }

    /** getAssignmentById. */
    function GetAssignmentById(id: Id): Option<Assignment>
      reads this
    {
      FindById(assignments, id)
    }

    /** getCourseAssignments. */
    function GetCourseAssignments(courseId: Id): seq<Assignment>
      reads this
    {
      CourseAssignmentsOf(assignments, courseId)
    }

    /** getAllAssignments. */
    function GetAllAssignments(): seq<Assignment>
      reads this
    {
      AllAssignmentsOf(assignments)
    }

    /** createAssignment: fails with "Course not found" when the owning course is absent;
        otherwise stores the input with a fresh id. */
    method CreateAssignment(data: AssignmentData, id: Id, now: Time) returns (r: Result<Assignment, Failure>)
      requires Valid()
      requires IndexOfId(assignments, id).None?
      modifies this
      ensures Valid()
      ensures data.courseId !in directory.courses ==> r == Err(CourseNotFound) && assignments == old(assignments)
      ensures data.courseId in directory.courses ==>
        r == Ok(NewAssignment(data, id, now)) && assignments == old(assignments) + [r.value]
    {
      if data.courseId !in directory.courses {
        return Err(CourseNotFound);
      }
      var a := NewAssignment(data, id, now);
      assignments := assignments + [a];
      r := Ok(a);
    }

    /** updateAssignment: fails with "Assignment not found" for an unknown id; otherwise replaces
        the stored assignment with the merge of the patch, keeping its id. */
    method UpdateAssignment(id: Id, patch: AssignmentPatch, now: Time) returns (r: Result<Assignment, Failure>)
      requires Valid()
      modifies this
      ensures Valid()
      ensures IndexOfId(old(assignments), id).None? ==> r == Err(AssignmentNotFound) && assignments == old(assignments)
      ensures IndexOfId(old(assignments), id).Some? ==>
        var i := IndexOfId(old(assignments), id).value;
        r == Ok(Merge(old(assignments)[i], patch, id, now)) && assignments == old(assignments)[i := r.value]
    {
      var found := IndexOfId(assignments, id);
      if found.None? {
        return Err(AssignmentNotFound);
      }
      var i := found.value;
      UpdateKeepsIdsDistinct(assignments, id, patch, now);
      var updated := Merge(assignments[i], patch, id, now);
      assignments := assignments[i := updated];
      r := Ok(updated);
    }

    /** deleteAssignment: fails with "Assignment not found" for an unknown id; otherwise only
        clears isActive (a soft delete). */
    method DeleteAssignment(id: Id, now: Time) returns (r: Result<(), Failure>)
      requires Valid()
      modifies this
      ensures Valid()
      ensures IndexOfId(old(assignments), id).None? ==> r == Err(AssignmentNotFound) && assignments == old(assignments)
      ensures IndexOfId(old(assignments), id).Some? ==>
        var i := IndexOfId(old(assignments), id).value;
        r == Ok(()) && assignments == old(assignments)[i := old(assignments)[i].(isActive := false, updatedAt := now)]
    {
      if IndexOfId(assignments, id).None? {
        return Err(AssignmentNotFound);
      }
      DeactivateOnlyClearsFlag(assignments[IndexOfId(assignments, id).value], now);
      var u := UpdateAssignment(id, DeactivatePatch, now);
      r := Ok(());
    }
  }
}

=== FILE: blob_storage.dfy ===
/** The decision logic of src/services/blobStorageService.ts: file validation, blob naming,
    the multi-file count check, folder paths and the connection-string parsing of the constructor. */
module BlobStorage {
  import opened Common
  import opened Text

  /** The fields of an uploaded file (Express.Multer.File) that the rules read. */
  datatype UploadedFile = UploadedFile(originalname: string, mimetype: string, size: nat)

  /** FileValidationOptions: every property may be absent, and an absent one takes its default. */
  datatype ValidationOptions = ValidationOptions(
    maxFileSize: Option<nat>, allowedMimeTypes: Option<seq<string>>, maxFiles: Option<nat>)

  const NoOptions := ValidationOptions(None, None, None)

  /** 10 MB. */
  const DefaultMaxFileSize: nat := 10 * 1024 * 1024

  /** The default maximum number of files of one uploadFiles call. */
  const DefaultMaxFiles: nat := 5

  /** The default allow-list: documents, images, archives and code files. */
  const DefaultAllowedMimeTypes: seq<string> := [
    "application/pdf",
    "application/msword",
    "application/vnd.openxmlformats-officedocument.wordprocessingml.document",
    "application/vnd.ms-excel",
    "application/vnd.openxmlformats-officedocument.spreadsheetml.sheet",
    "application/vnd.ms-powerpoint",
    "application/vnd.openxmlformats-officedocument.presentationml.presentation",
    "text/plain",
    "text/csv",
    "image/jpeg",
    "image/jpg",
    "image/png",
    "image/gif",
    "image/webp",
    "application/zip",
    "application/x-rar-compressed",
    "text/javascript",
    "text/typescript",
    "text/html",
    "text/css",
    "application/json"
  ]

  /** The errors of the storage service. */
  datatype StorageFailure =
    | FileTooLarge(size: nat, maxFileSize: nat)      // "File size (..MB) exceeds maximum allowed size (..MB)"
    | FileTypeNotAllowed(mimetype: string)          // "File type '<mimetype>' is not allowed. Allowed types: ..."
    | TooManyFiles(maxFiles: nat, received: nat)    // "Too many files. Maximum allowed: <max>, received: <n>"
    | MissingConnectionString                       // "AZURE_STORAGE_CONNECTION_STRING environment variable is required"
    | InvalidConnectionString                       // "Invalid Azure Storage connection string format"

  function MaxFileSizeOf(opts: ValidationOptions): nat
  {
    if opts.maxFileSize.Some? then opts.maxFileSize.value else DefaultMaxFileSize
  }

  function AllowedOf(opts: ValidationOptions): seq<string>
  {
    if opts.allowedMimeTypes.Some? then opts.allowedMimeTypes.value else DefaultAllowedMimeTypes
  }

  function MaxFilesOf(opts: ValidationOptions): nat
  {
    if opts.maxFiles.Some? then opts.maxFiles.value else DefaultMaxFiles
  }

  /** validateFile: the size check first, then the type check; None means the file is valid. */
  function ValidateFile(file: UploadedFile, opts: ValidationOptions): (r: Option<StorageFailure>)
    ensures r.None? <==> file.size <= MaxFileSizeOf(opts) && file.mimetype in AllowedOf(opts)
    ensures file.size > MaxFileSizeOf(opts) ==> r == Some(FileTooLarge(file.size, MaxFileSizeOf(opts)))
    ensures file.size <= MaxFileSizeOf(opts) && file.mimetype !in AllowedOf(opts) ==> r == Some(FileTypeNotAllowed(file.mimetype))
  {
    if file.size > MaxFileSizeOf(opts) then Some(FileTooLarge(file.size, MaxFileSizeOf(opts)))
    else if file.mimetype !in AllowedOf(opts) then Some(FileTypeNotAllowed(file.mimetype))
    else None
  }

  /** With the defaults, a file of exactly 10 MB of an allowed type passes and one byte more fails. */
  lemma DefaultLimitInclusive(originalname: string)
    ensures ValidateFile(UploadedFile(originalname, "application/pdf", DefaultMaxFileSize), NoOptions).None?
    ensures ValidateFile(UploadedFile(originalname, "application/pdf", DefaultMaxFileSize + 1), NoOptions)
      == Some(FileTooLarge(DefaultMaxFileSize + 1, DefaultMaxFileSize))
  {
  }

  /** Validation is monotone: a smaller file of the same type, or a looser limit or list, stays valid. */
  lemma ValidateMonotone(file: UploadedFile, opts: ValidationOptions, smaller: nat, opts': ValidationOptions)
    requires ValidateFile(file, opts).None?
    requires smaller <= file.size
    requires MaxFileSizeOf(opts) <= MaxFileSizeOf(opts')
    requires forall m :: m in AllowedOf(opts) ==> m in AllowedOf(opts')
    ensures ValidateFile(file.(size := smaller), opts').None?
  {
  }

  /** `originalname.split('.').pop() || ''`: the text after the last dot, or the whole name without one. */
  function Extension(originalname: string): (ext: string)
    ensures '.' !in ext
    ensures ext == Last(Split(originalname, '.'))
    ensures '.' !in originalname ==> ext == originalname
  {
    LastPieceIsLastPart(originalname, '.');
    LastPiece(originalname, '.')
  }

  /** The stored name of a file: `<uuid>.<extension>`. */
  function BlobFilename(uuid: string, originalname: string): string
  {
    uuid + "." + Extension(originalname)
  }

  /** The blob path: `<folder>/<filename>`. */
  function BlobName(folder: string, filename: string): string
  {
    folder + "/" + filename
  }

  /** The result of uploadFile. */
  datatype UploadResult = UploadResult(
    id: string, filename: string, originalFilename: string, fileSize: nat, mimeType: string,
    uploadUrl: string, uploadedAt: int)

  /** uploadFile, with the generated uuid, the container URL and the clock as parameters: an
      invalid file is refused before any name is built; otherwise the file is stored under
      `<folder>/<uuid>.<extension>` (folder "general" by default). */
  function UploadFile(file: UploadedFile, folder: Option<string>, opts: ValidationOptions,
                      uuid: string, containerUrl: string, now: int): (r: Result<UploadResult, StorageFailure>)
    ensures r.Err? <==> ValidateFile(file, opts).Some?
    ensures r.Err? ==> r.error == ValidateFile(file, opts).value
    ensures r.Ok? ==>
      && r.value.id == uuid
      && r.value.filename == BlobFilename(uuid, file.originalname)
      && r.value.originalFilename == file.originalname
      && r.value.fileSize == file.size
      && r.value.mimeType == file.mimetype
    ensures r.Ok? ==>
      r.value.uploadUrl == containerUrl + "/" + BlobName(if folder.Some? then folder.value else "general", r.value.filename)
  {
    var invalid := ValidateFile(file, opts);
    if invalid.Some? then Err(invalid.value)
    else
      var filename := BlobFilename(uuid, file.originalname);
      var blobName := BlobName(if folder.Some? then folder.value else "general", filename);
      Ok(UploadResult(uuid, filename, file.originalname, file.size, file.mimetype,
        containerUrl + "/" + blobName, now))
  }

  /** The stored filename gives back both the uuid (before the first dot) and the extension
      (after the last dot), and the blob name's last path segment is the filename. */
  lemma {:induction false} FilenameRoundTrip(uuid: string, originalname: string, folder: string)
    requires '.' !in uuid && '/' !in uuid && '/' !in Extension(originalname)
    ensures Split(BlobFilename(uuid, originalname), '.') == [uuid, Extension(originalname)]
    ensures LastPiece(BlobFilename(uuid, originalname), '.') == Extension(originalname)
    ensures LastPiece(BlobName(folder, BlobFilename(uuid, originalname)), '/') == BlobFilename(uuid, originalname)
  {
    var ext := Extension(originalname);
    DottedNameSplits(uuid, ext);
    var filename := BlobFilename(uuid, originalname);
    assert filename == uuid + "." + ext;
    LastPieceIsLastPart(filename, '.');
    SlashedNameEnds(folder, filename);
  }

  /** `<stem>.<ext>` with dot-free stem and extension splits on '.' into exactly those two. */
  lemma DottedNameSplits(stem: string, ext: string)
    requires '.' !in stem && '.' !in ext
    ensures Split(stem + "." + ext, '.') == [stem, ext]
  {
    assert stem + "." + ext == Join([stem, ext], '.');
    SplitJoin([stem, ext], '.');
  }

  /** The last '/'-piece of `<folder>/<name>` is the name when the name holds no '/'. */
  lemma SlashedNameEnds(folder: string, name: string)
    requires '/' !in name
    ensures LastPiece(BlobName(folder, name), '/') == name
  {
    assert BlobName(folder, name) == folder + ['/'] + name;
    LastPieceAfter(folder, name, '/');
  }

  /** The last piece after a separator that is followed by separator-free text is that text. */
  lemma {:induction false} LastPieceAfter(prefix: string, tail: string, sep: char)
    requires sep !in tail
    ensures LastPiece(prefix + [sep] + tail, sep) == tail
    decreases |prefix|
  {
    var s := prefix + [sep] + tail;
    var i := IndexOf(s, sep);
    if sep in prefix {
      var j := IndexOf(prefix, sep);
      assert s[..|prefix|] == prefix;
      assert i == j;
      assert s[i + 1..] == prefix[j + 1..] + [sep] + tail;
      LastPieceAfter(prefix[j + 1..], tail, sep);
    } else {
      assert s[..|prefix|] == prefix;
      assert i == |prefix|;
      assert s[i + 1..] == tail;
    }
  }

  /** uploadFiles: more files than maxFiles (default 5) are refused before any upload; otherwise
      every file is uploaded under its own uuid, and the first invalid file, in order, fails the call. */
  function UploadFiles(files: seq<UploadedFile>, folder: Option<string>, opts: ValidationOptions,
                       uuids: seq<string>, containerUrl: string, now: int): (r: Result<seq<UploadResult>, StorageFailure>)
    requires |uuids| == |files|
    ensures |files| > MaxFilesOf(opts) ==> r == Err(TooManyFiles(MaxFilesOf(opts), |files|))
    ensures |files| <= MaxFilesOf(opts) ==> r == UploadAll(files, folder, opts, uuids, containerUrl, now)
  {
    if |files| > MaxFilesOf(opts) then Err(TooManyFiles(MaxFilesOf(opts), |files|))
    else UploadAll(files, folder, opts, uuids, containerUrl, now)
  }

  /** The position of the first file that fails validation, if any. */
  function FirstInvalid(files: seq<UploadedFile>, opts: ValidationOptions): (r: Option<nat>)
    ensures r.Some? ==> r.value < |files| && ValidateFile(files[r.value], opts).Some?
    ensures r.Some? ==> forall j :: 0 <= j < r.value ==> ValidateFile(files[j], opts).None?
    ensures r.None? ==> forall j :: 0 <= j < |files| ==> ValidateFile(files[j], opts).None?
  {
    if files == [] then None
    else if ValidateFile(files[0], opts).Some? then Some(0)
    else
      var t := FirstInvalid(files[1..], opts);
      if t.None? then None else Some(t.value + 1)
  }

  /** `Promise.all` over the uploads: the results in order, or the failure of the first invalid
      file (validation fails before any upload work, so the rejections arrive in file order). */
  function UploadAll(files: seq<UploadedFile>, folder: Option<string>, opts: ValidationOptions,
                     uuids: seq<string>, containerUrl: string, now: int): (r: Result<seq<UploadResult>, StorageFailure>)
    requires |uuids| == |files|
    ensures r.Err? <==> FirstInvalid(files, opts).Some?
    ensures r.Err? ==> r.error == ValidateFile(files[FirstInvalid(files, opts).value], opts).value
    ensures r.Ok? ==> |r.value| == |files|
    ensures r.Ok? ==> forall k :: 0 <= k < |files| ==>
      UploadFile(files[k], folder, opts, uuids[k], containerUrl, now) == Ok(r.value[k])
  {
    var bad := FirstInvalid(files, opts);
    if bad.Some? then Err(ValidateFile(files[bad.value], opts).value)
    else Ok(seq(|files|, k requires 0 <= k < |files| => UploadFile(files[k], folder, opts, uuids[k], containerUrl, now).value))
  }

  /** Exactly maxFiles valid files are accepted: the count bound is inclusive. */
  lemma CountBoundInclusive(files: seq<UploadedFile>, folder: Option<string>, uuids: seq<string>,
                            containerUrl: string, now: int)
    requires |files| == DefaultMaxFiles && |uuids| == |files|
    requires forall k :: 0 <= k < |files| ==> ValidateFile(files[k], NoOptions).None?
    ensures UploadFiles(files, folder, NoOptions, uuids, containerUrl, now).Ok?
  {
  }

  /** The kind of folder generateFolderPath builds. */
  datatype FolderKind = AssignmentFolder | SubmissionFolder | OtherFolder

  /** generateFolderPath, with the current year and month (1-12) as parameters: the template
      `<root>/<year>/<MM>/<courseId>/<id>`, or `general/<year>/<MM>` for any other kind. */
  function FolderPath(kind: FolderKind, courseId: string, id: string, year: nat, month: nat): string
    requires 1 <= month <= 12
  {
    Join(FolderSegments(kind, courseId, id, year, month), '/')
  }

  /** The pieces the folder-path template puts between slashes. */
  function FolderSegments(kind: FolderKind, courseId: string, id: string, year: nat, month: nat): (r: seq<string>)
    requires 1 <= month <= 12
    ensures |r| == if kind == OtherFolder then 3 else 5
    ensures r[0] == FolderRoot(kind) && r[1] == NatToString(year) && r[2] == Pad2(month)
    ensures kind != OtherFolder ==> r[3] == courseId && r[4] == id
  {
    [FolderRoot(kind), NatToString(year), Pad2(month)] + (if kind == OtherFolder then [] else [courseId, id])
  }

  /** The folder root of each kind. */
  function FolderRoot(kind: FolderKind): string
  {
    match kind
    case AssignmentFolder => "assignments"
    case SubmissionFolder => "submissions"
    case OtherFolder => "general"
  }

  /** A folder path splits back into its root, the year, the two-digit month and, for assignment
      and submission folders, the course id and the owner id. */
  lemma FolderPathSegments(kind: FolderKind, courseId: string, id: string, year: nat, month: nat)
    requires 1 <= month <= 12
    requires '/' !in courseId && '/' !in id
    ensures Split(FolderPath(kind, courseId, id, year, month), '/') == FolderSegments(kind, courseId, id, year, month)
  {
    var parts := FolderSegments(kind, courseId, id, year, month);
    SegmentsHaveNoSlash(kind, courseId, id, year, month);
    SplitJoin(parts, '/');
  }

  /** No segment of a folder path holds a slash. */
  lemma SegmentsHaveNoSlash(kind: FolderKind, courseId: string, id: string, year: nat, month: nat)
    requires 1 <= month <= 12
    requires '/' !in courseId && '/' !in id
    ensures forall k :: 0 <= k < |FolderSegments(kind, courseId, id, year, month)| ==>
      '/' !in FolderSegments(kind, courseId, id, year, month)[k]
  {
    var parts := FolderSegments(kind, courseId, id, year, month);
    DigitsHaveNoSlash(NatToString(year));
    MonthHasNoSlash(month);
    RootHasNoSlash(kind);
    forall k | 0 <= k < |parts| ensures '/' !in parts[k] {
      if k == 0 {
      } else if k == 1 {
      } else if k == 2 {
      } else if k == 3 {
      } else {
      }
    }
  }

  /** The two-digit month holds no slash. */
  lemma MonthHasNoSlash(month: nat)
    requires 1 <= month <= 12
    ensures '/' !in Pad2(month)
  {
    DigitsHaveNoSlash(NatToString(month));
    if month < 10 {
      assert Pad2(month) == "0" + NatToString(month);
    }
  }

  /** No folder root holds a slash. */
  lemma RootHasNoSlash(kind: FolderKind)
    ensures '/' !in FolderRoot(kind)
  {
  }

  /** A string of decimal digits holds no slash. */
  lemma DigitsHaveNoSlash(s: string)
    requires forall i :: 0 <= i < |s| ==> '0' <= s[i] <= '9'
    ensures '/' !in s
  {
  }

  /** One step of a join. */
  lemma JoinCons(x: string, rest: seq<string>, sep: char)
    requires |rest| >= 1
    ensures Join([x] + rest, sep) == x + [sep] + Join(rest, sep)
  {
    assert ([x] + rest)[1..] == rest;
  }

  /** The month and the year read back from a folder path. */
  lemma FolderPathDate(kind: FolderKind, courseId: string, id: string, year: nat, month: nat)
    requires 1 <= month <= 12
    requires '/' !in courseId && '/' !in id
    ensures var segments := Split(FolderPath(kind, courseId, id, year, month), '/');
      && |segments| >= 3
      && (forall i :: 0 <= i < |segments[1]| ==> '0' <= segments[1][i] <= '9')
      && (forall i :: 0 <= i < |segments[2]| ==> '0' <= segments[2][i] <= '9')
      && ParseNat(segments[1]) == year && ParseNat(segments[2]) == month
  {
    FolderPathSegments(kind, courseId, id, year, month);
    Pad2Digits(month);
    ParseNatToString(year);
  }

  /** The pattern `<key>([^;]+)` matches at position p: the key, then at least one character other than ';'. */
  predicate MatchAt(s: string, key: string, p: nat)
  {
    p + |key| < |s| && s[p..p + |key|] == key && s[p + |key|] != ';'
  }

  /** The longest prefix of t without ';'. */
  function UpToSemicolon(t: string): (r: string)
    ensures |r| <= |t| && ';' !in r && r == t[..|r|]
    ensures |r| < |t| ==> t[|r|] == ';'
  {
    if ';' in t then t[..IndexOf(t, ';')] else t
  }

  /** `s.match(/<key>([^;]+)/)[1]`: the value after the leftmost match, up to the next ';'. */
  function FindValue(s: string, key: string, from: nat): (r: Option<string>)
    requires from <= |s|
    ensures r.None? ==> forall p :: from <= p <= |s| ==> !MatchAt(s, key, p)
    ensures r.Some? ==> |r.value| > 0 && ';' !in r.value
    decreases |s| - from
  {
    if MatchAt(s, key, from) then Some(UpToSemicolon(s[from + |key|..]))
    else if from == |s| then None
    else FindValue(s, key, from + 1)
  }

  /** The leftmost match determines the value. */
  lemma {:induction false} FindValueFirst(s: string, key: string, from: nat, p: nat)
    requires from <= p <= |s| && MatchAt(s, key, p)
    requires forall q :: from <= q < p ==> !MatchAt(s, key, q)
    ensures FindValue(s, key, from) == Some(UpToSemicolon(s[p + |key|..]))
    decreases p - from
  {
    if from < p {
      assert !MatchAt(s, key, from) && from < |s|;
      FindValueFirst(s, key, from + 1, p);
      assert FindValue(s, key, from) == FindValue(s, key, from + 1);
    }
  }

  /** Where the key matches nowhere, there is no value: with FindValue's own contract, the
      value is missing exactly when the pattern matches nowhere. */
  lemma {:induction false} FindValueMissing(s: string, key: string, from: nat)
    requires from <= |s|
    requires forall p :: from <= p <= |s| ==> !MatchAt(s, key, p)
    ensures FindValue(s, key, from) == None
    decreases |s| - from
  {
    assert !MatchAt(s, key, from);
    if from < |s| {
      FindValueSkips(s, key, from);
      FindValueMissing(s, key, from + 1);
    }
  }

  /** A position that is not a match is skipped. */
  lemma FindValueSkips(s: string, key: string, from: nat)
    requires from < |s| && !MatchAt(s, key, from)
    ensures FindValue(s, key, from) == FindValue(s, key, from + 1)
  {
  }

  /** The account name and key taken from the connection string, and the container name. */
  datatype StorageConfig = StorageConfig(accountName: string, accountKey: string, containerName: string)

  /** `AZURE_STORAGE_CONTAINER_NAME || 'edu-attachments'`. */
  function ContainerName(env: Option<string>): (r: string)
    ensures env.Some? && env.value != "" ==> r == env.value
    ensures env.None? || env.value == "" ==> r == "edu-attachments"
  {
    if env.Some? && env.value != "" then env.value else "edu-attachments"
  }

  /** The constructor's checks: the connection string must be present and non-empty, and both
      `AccountName=` and `AccountKey=` must be followed by a value. */
  function ParseConnection(connectionString: Option<string>, containerEnv: Option<string>): (r: Result<StorageConfig, StorageFailure>)
    ensures connectionString.None? || connectionString.value == "" ==> r == Err(MissingConnectionString)
    ensures connectionString.Some? && connectionString.value != "" ==>
      ((FindValue(connectionString.value, "AccountName=", 0).None? || FindValue(connectionString.value, "AccountKey=", 0).None?)
       <==> r == Err(InvalidConnectionString))
    ensures r.Ok? ==>
      && r.value.accountName == FindValue(connectionString.value, "AccountName=", 0).value
      && r.value.accountKey == FindValue(connectionString.value, "AccountKey=", 0).value
      && r.value.containerName == ContainerName(containerEnv)
      && r.value.accountName != "" && ';' !in r.value.accountName
      && r.value.accountKey != "" && ';' !in r.value.accountKey
  {
    if connectionString.None? || connectionString.value == "" then Err(MissingConnectionString)
    else
      var s := connectionString.value;
      var name := FindValue(s, "AccountName=", 0);
      var key := FindValue(s, "AccountKey=", 0);
      if name.None? || key.None? then Err(InvalidConnectionString)
      else Ok(StorageConfig(name.value, key.value, ContainerName(containerEnv)))
  }

  /** A non-empty connection string in which `AccountName=` or `AccountKey=` is never followed by
      a value is refused with the format error. */
  lemma MissingFieldRefused(cs: string, containerEnv: Option<string>)
    requires cs != ""
    requires (forall p :: 0 <= p <= |cs| ==> !MatchAt(cs, "AccountName=", p))
          || (forall p :: 0 <= p <= |cs| ==> !MatchAt(cs, "AccountKey=", p))
    ensures ParseConnection(Some(cs), containerEnv) == Err(InvalidConnectionString)
  {
    if forall p :: 0 <= p <= |cs| ==> !MatchAt(cs, "AccountName=", p) {
      FindValueMissing(cs, "AccountName=", 0);
    } else {
      FindValueMissing(cs, "AccountKey=", 0);
    }
  }

  /** An account name as Azure issues them: lower-case letters and digits. */
  predicate IsAccountName(n: string)
  {
    |n| > 0 && forall i :: 0 <= i < |n| ==> ('a' <= n[i] <= 'z' || '0' <= n[i] <= '9')
  }

  /** Parsing a connection string built from an account name and a key gives both back. */
  lemma ParseConnectionRoundTrip(name: string, key: string, containerEnv: Option<string>)
    requires IsAccountName(name)
    requires |key| > 0 && ';' !in key
    ensures ParseConnection(Some("AccountName=" + name + ";AccountKey=" + key), containerEnv)
      == Ok(StorageConfig(name, key, ContainerName(containerEnv)))
  {
    AccountNameFound(name, key);
    AccountKeyFound(name, key);
  }

  /** The name is found right at the start and runs up to the first ';'. */
  lemma AccountNameFound(name: string, key: string)
    requires IsAccountName(name)
    ensures FindValue("AccountName=" + name + ";AccountKey=" + key, "AccountName=", 0) == Some(name)
  {
    var s := "AccountName=" + name + ";AccountKey=" + key;
    var t := name + ";AccountKey=" + key;
    assert s[..12] == "AccountName=";
    assert s[12..] == t;
    assert MatchAt(s, "AccountName=", 0) by {
      assert s[12] == name[0];
    }
    FindValueFirst(s, "AccountName=", 0, 0);
    assert t[|name|] == ';';
    assert t[..|name|] == name;
    assert ';' !in name by {
      forall i | 0 <= i < |name| ensures name[i] != ';' {}
    }
  }

  /** The key's only match is after the name, because an account name holds no '='. */
  lemma AccountKeyFound(name: string, key: string)
    requires IsAccountName(name)
    requires |key| > 0 && ';' !in key
    ensures FindValue("AccountName=" + name + ";AccountKey=" + key, "AccountKey=", 0) == Some(key)
  {
    var s := "AccountName=" + name + ";AccountKey=" + key;
    var keyAt := 13 + |name|;
    assert s[keyAt..keyAt + 11] == "AccountKey=";
    assert s[keyAt + 11..] == key;
    forall q | 0 <= q < keyAt ensures !MatchAt(s, "AccountKey=", q) {
      NoEarlyKey(name, key, q);
    }
    FindValueFirst(s, "AccountKey=", 0, keyAt);
  }

  /** No match of `AccountKey=` starts before the key's own. */
  lemma NoEarlyKey(name: string, key: string, q: nat)
    requires IsAccountName(name)
    requires q < 13 + |name|
    ensures !MatchAt("AccountName=" + name + ";AccountKey=" + key, "AccountKey=", q)
  {
    var s := "AccountName=" + name + ";AccountKey=" + key;
    var k := "AccountKey=";
    if q + 11 <= |s| {
      if q == 1 {
        assert s[q..q + 11][0] == 'c' != k[0];
      } else {
        assert s[q..q + 11][10] == s[q + 10];
        if q + 10 < 12 {
          assert s[q + 10] == 'e';
        } else if q + 10 < 12 + |name| {
          assert s[q + 10] == name[q - 2];
        } else if q + 10 == 12 + |name| {
          assert s[q + 10] == ';';
        } else {
          assert s[q + 10] == k[q - 3 - |name|];
        }
        assert s[q..q + 11][10] != k[10];
      }
    }
  }
}

=== FILE: common.dfy ===
/** Optional values and results shared by every component of the model. */
module Common {

  /** A value that may be absent: an optional property or a query that found nothing. */
  datatype Option<+T> = None | Some(value: T)

  /** The outcome of an operation that either returns a value or fails with an error. */
  datatype Result<+T, +E> = Ok(value: T) | Err(error: E)

  /** JavaScript truthiness of an optional flag: an absent flag counts as false. */
  function Flag(o: Option<bool>): bool
  {
    o.Some? && o.value
  }
}

=== FILE: course_directory.dfy ===
/** The course directory of src/services/courseService.ts: courses, enrollment rows and student
    documents, kept in three containers. Enrolling a student writes all three. */
module CourseDirectory {
  import opened Common
  import opened Records
  import opened EnrollmentTable

  /** The fields of a new course that the caller supplies (everything but id, timestamps,
      currentEnrollments and enrolledStudents). */
  datatype CourseData = CourseData(
    title: string,
    description: string,
    instructorId: Id,
    instructorName: string,
    category: string,
    level: Level,
    duration: real,
    maxStudents: int,
    assignments: seq<AssignmentReference>,
    isActive: bool,
    tags: seq<string>,
    syllabus: Option<seq<string>>,
    prerequisites: Option<seq<string>>)

  /** The caller-supplied part of a stored course. */
  function CourseDataOf(c: Course): CourseData
  {
    CourseData(c.title, c.description, c.instructorId, c.instructorName, c.category, c.level, c.duration,
      c.maxStudents, c.assignments, c.isActive, c.tags, c.syllabus, c.prerequisites)
  }

  /** The document createCourse stores: the caller's fields, a fresh id, both timestamps, no
      enrollments and an empty roster. */
  function NewCourse(data: CourseData, id: Id, now: Time): (c: Course)
    ensures CourseDataOf(c) == data
    ensures c.id == id && c.currentEnrollments == 0 && c.enrolledStudents == []
    ensures c.createdAt == now && c.updatedAt == now
  {
    Course(id, data.title, data.description, data.instructorId, data.instructorName, data.category,
      data.level, data.duration, data.maxStudents, 0, [], data.assignments, data.isActive, now, now,
      data.tags, data.syllabus, data.prerequisites)
  }

  /** The `enrolledStudents.some(...)` check: the student appears in the course's roster. */
  predicate IsListed(c: Course, studentId: Id)
  {
    exists j :: 0 <= j < |c.enrolledStudents| && c.enrolledStudents[j].studentId == studentId
  }

  /** A course's own invariant: the counter equals the roster length, never exceeds the
      capacity once it is positive, and nobody is listed twice. */
  ghost predicate RosterConsistent(c: Course)
  {
    && c.currentEnrollments == |c.enrolledStudents|
    && (c.currentEnrollments == 0 || c.currentEnrollments <= c.maxStudents)
    && (forall j, k :: 0 <= j < k < |c.enrolledStudents| ==>
          c.enrolledStudents[j].studentId != c.enrolledStudents[k].studentId)
  }

  /** The course after a successful enrollment: one roster entry appended, the counter up by one. */
  function AddToRoster(c: Course, studentId: Id, studentName: string, now: Time): (r: Course)
    ensures r.enrolledStudents == c.enrolledStudents + [EnrolledStudent(studentId, studentName, now)]
    ensures r.currentEnrollments == c.currentEnrollments + 1
    ensures r == c.(enrolledStudents := r.enrolledStudents, currentEnrollments := r.currentEnrollments, updatedAt := now)
  {
    c.(enrolledStudents := c.enrolledStudents + [EnrolledStudent(studentId, studentName, now)],
       currentEnrollments := c.currentEnrollments + 1,
       updatedAt := now)
  }

  /** The enrollment row enrollStudent creates. */
  function NewEnrollment(id: Id, courseId: Id, studentId: Id, name: string, email: string, now: Time): Enrollment
  {
    Enrollment(id, courseId, studentId, name, email, now, Enrolled, 0.0, None)
  }

  /** An existing student after createOrUpdateStudent: the course id is appended unless present. */
  function WithCourse(s: Student, courseId: Id, now: Time): (r: Student)
    ensures courseId in r.enrolledCourses
    ensures |s.enrolledCourses| <= |r.enrolledCourses| <= |s.enrolledCourses| + 1
    ensures r.enrolledCourses[..|s.enrolledCourses|] == s.enrolledCourses
    ensures courseId in s.enrolledCourses ==> r == s
    ensures r.id == s.id && r.name == s.name && r.email == s.email
  {
    if courseId in s.enrolledCourses then s
    else s.(enrolledCourses := s.enrolledCourses + [courseId], updatedAt := now)
  }

  /** The student document after createOrUpdateStudent, created when absent. */
  function UpsertedStudent(students: map<Id, Student>, studentId: Id, name: string, email: string,
                           courseId: Id, now: Time): (r: Student)
    ensures r.id == (if studentId in students then students[studentId].id else studentId)
    ensures courseId in r.enrolledCourses
    ensures studentId !in students ==> r.enrolledCourses == [courseId] && r.isActive
  {
    if studentId in students then WithCourse(students[studentId], courseId, now)
    else Student(studentId, name, email, [courseId], now, now, true, None, None, None)
  }

  /** Repeating the upsert for the same course changes nothing more. */
  lemma WithCourseIdempotent(s: Student, courseId: Id, now: Time, later: Time)
    ensures WithCourse(WithCourse(s, courseId, now), courseId, later) == WithCourse(s, courseId, now)
  {
  }

  /** A student's earlier courses survive an upsert. */
  lemma WithCourseKeeps(s: Student, courseId: Id, now: Time, other: Id)
    requires other in s.enrolledCourses
    ensures other in WithCourse(s, courseId, now).enrolledCourses
  {
    var r := WithCourse(s, courseId, now);
    var k :| 0 <= k < |s.enrolledCourses| && s.enrolledCourses[k] == other;
    assert r.enrolledCourses[..|s.enrolledCourses|][k] == other;
  }

  /** An enrollment row is backed by the course roster and by the student document. */
  ghost predicate RowBacked(courses: map<Id, Course>, students: map<Id, Student>, e: Enrollment)
  {
    && e.courseId in courses
    && e.status == Enrolled
    && IsListed(courses[e.courseId], e.studentId)
    && e.studentId in students
    && e.courseId in students[e.studentId].enrolledCourses
  }

  /** Every course is stored under its id, keeps its own invariant, and its counter equals its number of rows. */
  ghost predicate CountersAgree(courses: map<Id, Course>, rows: seq<Enrollment>)
  {
    forall cid :: cid in courses ==>
      courses[cid].id == cid && RosterConsistent(courses[cid]) && CountRows(rows, cid) == courses[cid].currentEnrollments
  }

  /** Every enrollment row is backed by its course's roster and its student's document. */
  ghost predicate RowsBacked(courses: map<Id, Course>, rows: seq<Enrollment>, students: map<Id, Student>)
  {
    forall i :: 0 <= i < |rows| ==> RowBacked(courses, students, rows[i])
  }

  /** Every roster entry has an enrollment row. */
  ghost predicate RostersHaveRows(courses: map<Id, Course>, rows: seq<Enrollment>)
  {
    forall cid, j :: cid in courses && 0 <= j < |courses[cid].enrolledStudents| ==>
      HasEnrollment(rows, cid, courses[cid].enrolledStudents[j].studentId)
  }

  /** The three projections of "student S is enrolled in course C" agree, and every course
      keeps its own invariant. This holds for sequential calls. */
  ghost predicate DirectoryInvariant(courses: map<Id, Course>, rows: seq<Enrollment>, students: map<Id, Student>)
  {
    && CountersAgree(courses, rows)
    && RowsBacked(courses, rows, students)
    && RostersHaveRows(courses, rows)
    && PairsDistinct(rows)
    && (forall sid :: sid in students ==> students[sid].id == sid)
  }

  /** Under the invariant the two duplicate checks of enrollStudent give the same answer. */
  lemma DuplicateChecksAgree(courses: map<Id, Course>, rows: seq<Enrollment>, students: map<Id, Student>,
                             courseId: Id, studentId: Id)
    requires DirectoryInvariant(courses, rows, students)
    requires courseId in courses
    ensures HasEnrollment(rows, courseId, studentId) <==> IsListed(courses[courseId], studentId)
  {
    if HasEnrollment(rows, courseId, studentId) {
      var i :| 0 <= i < |rows| && rows[i].courseId == courseId && rows[i].studentId == studentId;
      assert RowBacked(courses, students, rows[i]);
    }
  }

  /** Under the invariant getEnrolledStudents returns as many rows as the course counter says. */
  lemma EnrolledStudentsMatchCounter(courses: map<Id, Course>, rows: seq<Enrollment>, students: map<Id, Student>,
                                     courseId: Id)
    requires DirectoryInvariant(courses, rows, students)
    requires courseId in courses
    ensures |EnrolledRows(rows, courseId)| == courses[courseId].currentEnrollments
    ensures |EnrolledRows(rows, courseId)| == |courses[courseId].enrolledStudents|
  {
    forall i | 0 <= i < |rows| ensures rows[i].status == Enrolled {
      assert RowBacked(courses, students, rows[i]);
    }
    EnrolledRowsCount(rows, courseId);
  }

  /** Adding a course with a fresh id keeps the invariant. */
  lemma CreatePreserves(courses: map<Id, Course>, rows: seq<Enrollment>, students: map<Id, Student>,
                        data: CourseData, id: Id, now: Time)
    requires DirectoryInvariant(courses, rows, students)
    requires id !in courses
    ensures DirectoryInvariant(courses[id := NewCourse(data, id, now)], rows, students)
  {
    var courses' := courses[id := NewCourse(data, id, now)];
    assert CountRows(rows, id) == 0 by {
      CountRowsNone(rows, courses, students, id);
    }
    forall i | 0 <= i < |rows| ensures RowBacked(courses', students, rows[i]) {
      assert RowBacked(courses, students, rows[i]);
    }
  }

  // No row names a course that does not exist.
  lemma {:induction false} CountRowsNone(rows: seq<Enrollment>, courses: map<Id, Course>, students: map<Id, Student>, id: Id)
    requires forall i :: 0 <= i < |rows| ==> RowBacked(courses, students, rows[i])
    requires id !in courses
    ensures CountRows(rows, id) == 0
  {
    if rows != [] {
      CountRowsNone(rows[..|rows| - 1], courses, students, id);
    }
  }

  /** A successful enrollment (all of enrollStudent's checks passed) keeps the invariant. */
  lemma EnrollPreserves(courses: map<Id, Course>, rows: seq<Enrollment>, students: map<Id, Student>,
                        courseId: Id, studentId: Id, name: string, email: string, enrollmentId: Id, now: Time)
    requires DirectoryInvariant(courses, rows, students)
    requires courseId in courses
    requires courses[courseId].currentEnrollments < courses[courseId].maxStudents
    requires !HasEnrollment(rows, courseId, studentId)
    requires !IsListed(courses[courseId], studentId)
    ensures DirectoryInvariant(
      courses[courseId := AddToRoster(courses[courseId], studentId, name, now)],
      rows + [NewEnrollment(enrollmentId, courseId, studentId, name, email, now)],
      students[studentId := UpsertedStudent(students, studentId, name, email, courseId, now)])
  {
    var e := NewEnrollment(enrollmentId, courseId, studentId, name, email, now);
    EnrollKeepsCounters(courses, rows, courseId, studentId, name, e, now);
    EnrollKeepsRowsBacked(courses, rows, students, courseId, studentId, name, email, e, now);
    EnrollKeepsRosterRows(courses, rows, courseId, studentId, name, e, now);
    PairsDistinctAppend(rows, e);
  }

  /** Enrolling keeps every roster consistent and every counter equal to the row count. */
  lemma EnrollKeepsCounters(courses: map<Id, Course>, rows: seq<Enrollment>, courseId: Id, studentId: Id,
                            name: string, e: Enrollment, now: Time)
    requires CountersAgree(courses, rows)
    requires courseId in courses && e.courseId == courseId
    requires courses[courseId].currentEnrollments < courses[courseId].maxStudents
    requires !IsListed(courses[courseId], studentId)
    ensures CountersAgree(courses[courseId := AddToRoster(courses[courseId], studentId, name, now)], rows + [e])
  {
    var c := courses[courseId];
    var c' := AddToRoster(c, studentId, name, now);
    var courses' := courses[courseId := c'];
    assert RosterConsistent(c') by {
      forall j, k | 0 <= j < k < |c'.enrolledStudents|
        ensures c'.enrolledStudents[j].studentId != c'.enrolledStudents[k].studentId
      {
        if k == |c.enrolledStudents| {
          assert c'.enrolledStudents[j] == c.enrolledStudents[j];
        }
      }
    }
    forall cid | cid in courses'
      ensures courses'[cid].id == cid && RosterConsistent(courses'[cid])
      ensures CountRows(rows + [e], cid) == courses'[cid].currentEnrollments
    {
      CountRowsAppend(rows, e, cid);
    }
  }

  /** Enrolling keeps the old rows backed and backs the new one. */
  lemma EnrollKeepsRowsBacked(courses: map<Id, Course>, rows: seq<Enrollment>, students: map<Id, Student>,
                              courseId: Id, studentId: Id, name: string, email: string, e: Enrollment, now: Time)
    requires RowsBacked(courses, rows, students)
    requires courseId in courses
    requires e.courseId == courseId && e.studentId == studentId && e.status == Enrolled
    ensures RowsBacked(courses[courseId := AddToRoster(courses[courseId], studentId, name, now)], rows + [e],
                       students[studentId := UpsertedStudent(students, studentId, name, email, courseId, now)])
  {
    var c := courses[courseId];
    var c' := AddToRoster(c, studentId, name, now);
    var courses' := courses[courseId := c'];
    var rows' := rows + [e];
    var students' := students[studentId := UpsertedStudent(students, studentId, name, email, courseId, now)];
    forall i | 0 <= i < |rows'| ensures RowBacked(courses', students', rows'[i]) {
      if i < |rows| {
        var r := rows[i];
        assert rows'[i] == r;
        assert RowBacked(courses, students, r);
        var j :| 0 <= j < |courses[r.courseId].enrolledStudents| && courses[r.courseId].enrolledStudents[j].studentId == r.studentId;
        assert courses'[r.courseId].enrolledStudents[j] == courses[r.courseId].enrolledStudents[j];
        if r.studentId == studentId {
          WithCourseKeeps(students[studentId], courseId, now, r.courseId);
        }
      } else {
        assert rows'[i] == e;
        assert c'.enrolledStudents[|c.enrolledStudents|].studentId == studentId;
      }
    }
  }

  /** Enrolling gives the new roster entry its row and keeps the old entries' rows. */
  lemma EnrollKeepsRosterRows(courses: map<Id, Course>, rows: seq<Enrollment>, courseId: Id, studentId: Id,
                              name: string, e: Enrollment, now: Time)
    requires RostersHaveRows(courses, rows)
    requires courseId in courses && e.courseId == courseId && e.studentId == studentId
    ensures RostersHaveRows(courses[courseId := AddToRoster(courses[courseId], studentId, name, now)], rows + [e])
  {
    var c := courses[courseId];
    var c' := AddToRoster(c, studentId, name, now);
    var courses' := courses[courseId := c'];
    forall cid, j | cid in courses' && 0 <= j < |courses'[cid].enrolledStudents|
      ensures HasEnrollment(rows + [e], cid, courses'[cid].enrolledStudents[j].studentId)
    {
      var sid := courses'[cid].enrolledStudents[j].studentId;
      HasEnrollmentAppend(rows, e, cid, sid);
      if cid == courseId && j < |c.enrolledStudents| {
        assert c'.enrolledStudents[j] == c.enrolledStudents[j];
      }
    }
  }

  class Directory {
    var courses: map<Id, Course>
    var enrollments: seq<Enrollment>
    var students: map<Id, Student>

    ghost predicate Valid()
      reads this
    {
      DirectoryInvariant(courses, enrollments, students)
    }

    constructor ()
      ensures Valid()
      ensures courses == map[] && enrollments == [] && students == map[]
    {
      courses := map[];
      enrollments := [];
      students := map[];
    }

    /** getCourseById: the stored course or none. */
    function GetCourse(courseId: Id): (r: Option<Course>)
      reads this
      ensures r.Some? <==> courseId in courses
      ensures r.Some? ==> r.value == courses[courseId]
    {
      if courseId in courses then Some(courses[courseId]) else None
    }

    /** getStudentById: the stored student document or none, unchanged. */
    function GetStudent(studentId: Id): (r: Option<Student>)
      reads this
      ensures r.Some? <==> studentId in students
      ensures r.Some? ==> r.value == students[studentId]
    {
      if studentId in students then Some(students[studentId]) else None
    }

    /** getEnrolledStudents. */
    function EnrolledStudents(courseId: Id): (r: seq<Enrollment>)
      reads this
      ensures forall e :: e in r <==> e in enrollments && e.courseId == courseId && e.status == Enrolled
    {
      EnrolledRows(enrollments, courseId)
    }

    /** createCourse: stores a new course with a fresh id, no enrollments and an empty roster. */
    method CreateCourse(data: CourseData, id: Id, now: Time) returns (c: Course)
      requires Valid()
      requires id !in courses
      modifies this
      ensures Valid()
      ensures c == NewCourse(data, id, now)
      ensures courses == old(courses)[id := c]
      ensures enrollments == old(enrollments) && students == old(students)
    {
      c := NewCourse(data, id, now);
      CreatePreserves(courses, enrollments, students, data, id, now);
      courses := courses[id := c];
    }

    /** createOrUpdateStudent: creates the student with this course, or appends the course id
        to an existing student unless it is already listed. */
    method CreateOrUpdateStudent(studentId: Id, name: string, email: string, courseId: Id, now: Time)
      returns (s: Student)
      modifies this
      ensures s == UpsertedStudent(old(students), studentId, name, email, courseId, now)
      ensures students == old(students)[studentId := s]
      ensures courses == old(courses) && enrollments == old(enrollments)
    {
      if studentId in students {
        s := students[studentId];
        if courseId !in s.enrolledCourses {
          s := s.(enrolledCourses := s.enrolledCourses + [courseId], updatedAt := now);
          students := students[studentId := s];
        }
      } else {
        s := Student(studentId, name, email, [courseId], now, now, true, None, None, None);
        students := students[studentId := s];
      }
    }

    /** enrollStudent: checks existence, capacity and both duplicate lookups, in that order;
        then writes the enrollment row, the course roster and counter, and the student document. */
    method EnrollStudent(courseId: Id, studentId: Id, name: string, email: string,
                         enrollmentId: Id, now: Time) returns (r: Result<Enrollment, Failure>)
      requires Valid()
      modifies this
      ensures Valid()
      ensures courseId !in old(courses) ==> r == Err(CourseNotFound)
      ensures courseId in old(courses) && old(courses[courseId].currentEnrollments >= courses[courseId].maxStudents)
        ==> r == Err(CourseFull)
      ensures courseId in old(courses) && old(courses[courseId].currentEnrollments < courses[courseId].maxStudents)
        && (HasEnrollment(old(enrollments), courseId, studentId) || IsListed(old(courses[courseId]), studentId))
        ==> r == Err(AlreadyEnrolled)
      ensures courseId in old(courses) && old(courses[courseId].currentEnrollments < courses[courseId].maxStudents)
        && !HasEnrollment(old(enrollments), courseId, studentId) && !IsListed(old(courses[courseId]), studentId)
        ==> r.Ok?
      ensures r.Err? ==> courses == old(courses) && enrollments == old(enrollments) && students == old(students)
      ensures r.Ok? ==>
        && r.value == NewEnrollment(enrollmentId, courseId, studentId, name, email, now)
        && enrollments == old(enrollments) + [r.value]
        && courses == old(courses)[courseId := AddToRoster(old(courses[courseId]), studentId, name, now)]
        && students == old(students)[studentId := UpsertedStudent(old(students), studentId, name, email, courseId, now)]
    {
      if courseId !in courses {
        return Err(CourseNotFound);
      }
      var course := courses[courseId];
      if course.currentEnrollments >= course.maxStudents {
        return Err(CourseFull);
      }
      if FindEnrollment(enrollments, courseId, studentId).Some? {
        return Err(AlreadyEnrolled);
      }
      if IsListed(course, studentId) {
        return Err(AlreadyEnrolled);
      }
      EnrollPreserves(courses, enrollments, students, courseId, studentId, name, email, enrollmentId, now);
      ghost var course' := AddToRoster(course, studentId, name, now);
      ghost var courses' := courses[courseId := course'];
      ghost var students' := students[studentId := UpsertedStudent(students, studentId, name, email, courseId, now)];

      var enrollment := NewEnrollment(enrollmentId, courseId, studentId, name, email, now);
      enrollments := enrollments + [enrollment];

      course := course.(enrolledStudents := course.enrolledStudents + [EnrolledStudent(studentId, name, now)],
                        currentEnrollments := course.currentEnrollments + 1,
                        updatedAt := now);
      assert course == course';
      courses := courses[courseId := course];

      var _ := CreateOrUpdateStudent(studentId, name, email, courseId, now);
      assert courses == courses' && students == students';
      r := Ok(enrollment);
    }
  }
}

=== FILE: enrollment_table.dfy ===
/** Queries over the enrollments container, shared by the current and the older course service. */
module EnrollmentTable {
  import opened Common
  import opened Records

  /** getEnrollment finds a row: some enrollment row is for this course and this student. */
  ghost predicate HasEnrollment(rows: seq<Enrollment>, courseId: Id, studentId: Id)
  {
    exists i :: 0 <= i < |rows| && rows[i].courseId == courseId && rows[i].studentId == studentId
  }

  /** getEnrollment: the first row for this course and this student, or none. */
  function FindEnrollment(rows: seq<Enrollment>, courseId: Id, studentId: Id): (r: Option<Enrollment>)
    ensures r.Some? <==> HasEnrollment(rows, courseId, studentId)
    ensures r.Some? ==> r.value in rows && r.value.courseId == courseId && r.value.studentId == studentId
  {
    if rows == [] then None
    else if rows[0].courseId == courseId && rows[0].studentId == studentId then Some(rows[0])
    else
      var t := FindEnrollment(rows[1..], courseId, studentId);
      assert HasEnrollment(rows[1..], courseId, studentId) ==> HasEnrollment(rows, courseId, studentId) by {
        if HasEnrollment(rows[1..], courseId, studentId) {
          var k :| 0 <= k < |rows| - 1 && rows[1..][k].courseId == courseId && rows[1..][k].studentId == studentId;
          assert rows[k + 1] == rows[1..][k];
        }
      }
      assert HasEnrollment(rows, courseId, studentId) ==> HasEnrollment(rows[1..], courseId, studentId) by {
        if HasEnrollment(rows, courseId, studentId) {
          var k :| 0 <= k < |rows| && rows[k].courseId == courseId && rows[k].studentId == studentId;
          assert k > 0 && rows[1..][k - 1] == rows[k];
        }
      }
      t
  }

  /** No two rows are for the same (courseId, studentId) pair. */
  ghost predicate PairsDistinct(rows: seq<Enrollment>)
  {
    forall i, j :: 0 <= i < j < |rows| ==>
      rows[i].courseId != rows[j].courseId || rows[i].studentId != rows[j].studentId
  }

  /** Number of rows that belong to the course. */
  function CountRows(rows: seq<Enrollment>, courseId: Id): nat
  {
    if rows == [] then 0
    else CountRows(rows[..|rows| - 1], courseId) + (if rows[|rows| - 1].courseId == courseId then 1 else 0)
  }

  /** getEnrolledStudents' query: the rows of the course whose status is 'enrolled', in stored order. */
  function EnrolledRows(rows: seq<Enrollment>, courseId: Id): (r: seq<Enrollment>)
    ensures forall e :: e in r <==> e in rows && e.courseId == courseId && e.status == Enrolled
    ensures |r| <= |rows|
  {
    if rows == [] then []
    else
      var init := rows[..|rows| - 1];
      var last := rows[|rows| - 1];
      assert rows == init + [last];
      EnrolledRows(init, courseId) + (if last.courseId == courseId && last.status == Enrolled then [last] else [])
  }

  /** Appending a row changes the count of its own course by one and no other. */
  lemma CountRowsAppend(rows: seq<Enrollment>, e: Enrollment, courseId: Id)
    ensures CountRows(rows + [e], courseId) == CountRows(rows, courseId) + (if e.courseId == courseId then 1 else 0)
  {
    assert (rows + [e])[..|rows|] == rows;
  }

  /** The row lookup after an append sees the old rows and the new one. */
  lemma HasEnrollmentAppend(rows: seq<Enrollment>, e: Enrollment, courseId: Id, studentId: Id)
    ensures HasEnrollment(rows + [e], courseId, studentId) <==>
      HasEnrollment(rows, courseId, studentId) || (e.courseId == courseId && e.studentId == studentId)
  {
    var rows' := rows + [e];
    if HasEnrollment(rows, courseId, studentId) {
      var i :| 0 <= i < |rows| && rows[i].courseId == courseId && rows[i].studentId == studentId;
      assert rows'[i] == rows[i];
    }
    if e.courseId == courseId && e.studentId == studentId {
      assert rows'[|rows|] == e;
    }
  }

  /** A row for a pair that has none keeps the pairs distinct. */
  lemma PairsDistinctAppend(rows: seq<Enrollment>, e: Enrollment)
    requires PairsDistinct(rows)
    requires !HasEnrollment(rows, e.courseId, e.studentId)
    ensures PairsDistinct(rows + [e])
  {
    var rows' := rows + [e];
    forall i, j | 0 <= i < j < |rows'|
      ensures rows'[i].courseId != rows'[j].courseId || rows'[i].studentId != rows'[j].studentId
    {
      if j == |rows| {
        assert rows'[i] == rows[i];
      }
    }
  }

  /** When every row is 'enrolled', getEnrolledStudents returns every row of the course. */
  lemma {:induction false} EnrolledRowsCount(rows: seq<Enrollment>, courseId: Id)
    requires forall i :: 0 <= i < |rows| ==> rows[i].status == Enrolled
    ensures |EnrolledRows(rows, courseId)| == CountRows(rows, courseId)
  {
    if rows != [] {
      EnrolledRowsCount(rows[..|rows| - 1], courseId);
    }
  }
}

=== FILE: legacy_course_directory.dfy ===
/** The older course service of backend/src/services/courseService.ts. Its courses carry only an
    enrollment counter (no roster), and duplicates are detected through enrollment rows alone. */
module LegacyCourseDirectory {
  import opened Common
  import opened Records
  import opened EnrollmentTable

  /** A course as declared in backend/src/models/Course.ts. */
  datatype LegacyCourse = LegacyCourse(
    id: Id,
    title: string,
    description: string,
    instructorId: Id,
    instructorName: string,
    category: string,
    level: Level,
    duration: real,
    maxStudents: int,
    currentEnrollments: int,
    isActive: bool,
    createdAt: Time,
    updatedAt: Time,
    tags: seq<string>,
    syllabus: Option<seq<string>>,
    prerequisites: Option<seq<string>>)

  /** The fields of a new course that the caller supplies. */
  datatype LegacyCourseData = LegacyCourseData(
    title: string,
    description: string,
    instructorId: Id,
    instructorName: string,
    category: string,
    level: Level,
    duration: real,
    maxStudents: int,
    isActive: bool,
    tags: seq<string>,
    syllabus: Option<seq<string>>,
    prerequisites: Option<seq<string>>)

  /** The caller-supplied part of a stored course. */
  function LegacyDataOf(c: LegacyCourse): LegacyCourseData
  {
    LegacyCourseData(c.title, c.description, c.instructorId, c.instructorName, c.category, c.level,
      c.duration, c.maxStudents, c.isActive, c.tags, c.syllabus, c.prerequisites)
  }

  /** The document createCourse stores: the caller's fields, a fresh id, both timestamps and a
      zero counter. */
  function NewLegacyCourse(data: LegacyCourseData, id: Id, now: Time): (c: LegacyCourse)
    ensures LegacyDataOf(c) == data
    ensures c.id == id && c.currentEnrollments == 0 && c.createdAt == now && c.updatedAt == now
  {
    LegacyCourse(id, data.title, data.description, data.instructorId, data.instructorName, data.category,
      data.level, data.duration, data.maxStudents, 0, data.isActive, now, now, data.tags, data.syllabus,
      data.prerequisites)
  }

  /** The counter of every course equals its number of enrollment rows and stays within capacity;
      rows name existing courses, are 'enrolled', and no pair is enrolled twice. */
  ghost predicate LegacyInvariant(courses: map<Id, LegacyCourse>, rows: seq<Enrollment>)
  {
    && (forall cid :: cid in courses ==>
          && courses[cid].id == cid
          && CountRows(rows, cid) == courses[cid].currentEnrollments
          && (courses[cid].currentEnrollments == 0 || courses[cid].currentEnrollments <= courses[cid].maxStudents))
    && (forall i :: 0 <= i < |rows| ==> rows[i].courseId in courses && rows[i].status == Enrolled)
    && PairsDistinct(rows)
  }

  // No row names a course that does not exist.
  lemma {:induction false} LegacyCountRowsNone(rows: seq<Enrollment>, courses: map<Id, LegacyCourse>, id: Id)
    requires forall i :: 0 <= i < |rows| ==> rows[i].courseId in courses
    requires id !in courses
    ensures CountRows(rows, id) == 0
  {
    if rows != [] {
      LegacyCountRowsNone(rows[..|rows| - 1], courses, id);
    }
  }

  /** Adding a course with a fresh id keeps the invariant. */
  lemma LegacyCreatePreserves(courses: map<Id, LegacyCourse>, rows: seq<Enrollment>,
                              data: LegacyCourseData, id: Id, now: Time)
    requires LegacyInvariant(courses, rows)
    requires id !in courses
    ensures LegacyInvariant(courses[id := NewLegacyCourse(data, id, now)], rows)
  {
    LegacyCountRowsNone(rows, courses, id);
  }

  /** A successful enrollment (course present, not full, no row for the pair) keeps the invariant. */
  lemma LegacyEnrollPreserves(courses: map<Id, LegacyCourse>, rows: seq<Enrollment>,
                              courseId: Id, e: Enrollment, now: Time)
    requires LegacyInvariant(courses, rows)
    requires courseId in courses && e.courseId == courseId && e.status == Enrolled
    requires courses[courseId].currentEnrollments < courses[courseId].maxStudents
    requires !HasEnrollment(rows, courseId, e.studentId)
    ensures LegacyInvariant(
      courses[courseId := courses[courseId].(currentEnrollments := courses[courseId].currentEnrollments + 1, updatedAt := now)],
      rows + [e])
  {
    forall cid | cid in courses ensures CountRows(rows + [e], cid) == CountRows(rows, cid) + (if cid == courseId then 1 else 0) {
      CountRowsAppend(rows, e, cid);
    }
    PairsDistinctAppend(rows, e);
  }

  /** Under the invariant getEnrolledStudents returns exactly as many rows as the counter says. */
  lemma LegacyEnrolledStudentsMatchCounter(courses: map<Id, LegacyCourse>, rows: seq<Enrollment>, courseId: Id)
    requires LegacyInvariant(courses, rows)
    requires courseId in courses
    ensures |EnrolledRows(rows, courseId)| == courses[courseId].currentEnrollments
  {
    EnrolledRowsCount(rows, courseId);
  }

  class LegacyDirectory {
    var courses: map<Id, LegacyCourse>
    var enrollments: seq<Enrollment>

    ghost predicate Valid()
      reads this
    {
      LegacyInvariant(courses, enrollments)
    }

    constructor ()
      ensures Valid() && courses == map[] && enrollments == []
    {
      courses := map[];
      enrollments := [];
    }

    /** getEnrolledStudents. */
    function EnrolledStudents(courseId: Id): (r: seq<Enrollment>)
      reads this
      ensures forall e :: e in r <==> e in enrollments && e.courseId == courseId && e.status == Enrolled
    {
      EnrolledRows(enrollments, courseId)
    }

    /** createCourse: a fresh id and a zero counter. */
    method CreateCourse(data: LegacyCourseData, id: Id, now: Time) returns (c: LegacyCourse)
      requires Valid()
      requires id !in courses
      modifies this
      ensures Valid()
      ensures c == NewLegacyCourse(data, id, now)
      ensures courses == old(courses)[id := c] && enrollments == old(enrollments)
    {
      c := NewLegacyCourse(data, id, now);
      LegacyCreatePreserves(courses, enrollments, data, id, now);
      courses := courses[id := c];
    }

    /** enrollStudent: existence, capacity and row-duplicate checks, then one row and counter + 1. */
    method EnrollStudent(courseId: Id, studentId: Id, name: string, email: string,
                         enrollmentId: Id, now: Time) returns (r: Result<Enrollment, Failure>)
      requires Valid()
      modifies this
      ensures Valid()
      ensures courseId !in old(courses) ==> r == Err(CourseNotFound)
      ensures courseId in old(courses) && old(courses[courseId].currentEnrollments >= courses[courseId].maxStudents)
        ==> r == Err(CourseFull)
      ensures courseId in old(courses) && old(courses[courseId].currentEnrollments < courses[courseId].maxStudents)
        && HasEnrollment(old(enrollments), courseId, studentId)
        ==> r == Err(AlreadyEnrolled)
      ensures courseId in old(courses) && old(courses[courseId].currentEnrollments < courses[courseId].maxStudents)
        && !HasEnrollment(old(enrollments), courseId, studentId)
        ==> r.Ok?
      ensures r.Err? ==> courses == old(courses) && enrollments == old(enrollments)
      ensures r.Ok? ==>
        && r.value == Enrollment(enrollmentId, courseId, studentId, name, email, now, Enrolled, 0.0, None)
        && enrollments == old(enrollments) + [r.value]
        && courses == old(courses)[courseId := old(courses[courseId]).(
             currentEnrollments := old(courses[courseId].currentEnrollments) + 1, updatedAt := now)]
    {
      if courseId !in courses {
        return Err(CourseNotFound);
      }
      var course := courses[courseId];
      if course.currentEnrollments >= course.maxStudents {
        return Err(CourseFull);
      }
      if FindEnrollment(enrollments, courseId, studentId).Some? {
        return Err(AlreadyEnrolled);
      }
      var enrollment := Enrollment(enrollmentId, courseId, studentId, name, email, now, Enrolled, 0.0, None);
      LegacyEnrollPreserves(courses, enrollments, courseId, enrollment, now);
      enrollments := enrollments + [enrollment];

      course := course.(currentEnrollments := course.currentEnrollments + 1, updatedAt := now);
      courses := courses[courseId := course];
      r := Ok(enrollment);
    }
  }
}

=== FILE: query.dfy ===
/** The two query shapes the services use against the document store: a `WHERE` filter and an
    `ORDER BY key ASC` (a stable insertion sort on an integer key; descending orders use the
    negated key). */
module Query {

  /** The elements of s that satisfy p, in their stored order. */
  function Filter<T(!new)>(s: seq<T>, p: T -> bool): (r: seq<T>)
    ensures forall x :: x in r <==> x in s && p(x)
    ensures |r| <= |s|
  {
    if s == [] then []
    else
      var init := s[..|s| - 1];
      var last := s[|s| - 1];
      assert s == init + [last];
      Filter(init, p) + (if p(last) then [last] else [])
  }

  /** Filtering a sequence with one more element at the end. */
  lemma FilterAppend<T(!new)>(s: seq<T>, x: T, p: T -> bool)
    ensures Filter(s + [x], p) == Filter(s, p) + (if p(x) then [x] else [])
  {
    assert (s + [x])[..|s|] == s;
  }

  /** Every element's key is at most the key of every later element. */
  ghost predicate SortedBy<T>(s: seq<T>, key: T -> int)
  {
    forall i, j :: 0 <= i < j < |s| ==> key(s[i]) <= key(s[j])
  }

  /** Puts x in front of the first element whose key is not smaller than x's. */
  function Insert<T>(x: T, s: seq<T>, key: T -> int): (r: seq<T>)
    requires SortedBy(s, key)
    ensures SortedBy(r, key)
    ensures multiset(r) == multiset(s) + multiset{x}
    ensures |r| == |s| + 1
    ensures r[0] == x || (|s| > 0 && r[0] == s[0])
  {
    if s == [] || key(x) <= key(s[0]) then
      SortedCons(x, s, key);
      [x] + s
    else
      var rest := Insert(x, s[1..], key);
      assert s == [s[0]] + s[1..];
      SortedCons(s[0], rest, key);
      [s[0]] + rest
  }

  /** An element no larger than the head of a sorted sequence can go in front of it. */
  lemma SortedCons<T>(y: T, rest: seq<T>, key: T -> int)
    requires SortedBy(rest, key)
    requires rest != [] ==> key(y) <= key(rest[0])
    ensures SortedBy([y] + rest, key)
  {
  }

  /** The elements of s ordered by ascending key. */
  function SortBy<T>(s: seq<T>, key: T -> int): (r: seq<T>)
    ensures SortedBy(r, key)
    ensures multiset(r) == multiset(s)
    ensures |r| == |s|
  {
    if s == [] then []
    else
      assert s == [s[0]] + s[1..];
      Insert(s[0], SortBy(s[1..], key), key)
  }

  /** Sorting keeps exactly the elements of the input. */
  lemma SortByMembers<T>(s: seq<T>, key: T -> int, x: T)
    ensures x in SortBy(s, key) <==> x in s
  {
    var r := SortBy(s, key);
    assert x in r <==> x in multiset(r);
    assert x in s <==> x in multiset(s);
  }
}

=== FILE: records.dfy ===
/** The documents the services store, as declared in src/models/Course.ts, and the errors
    that the services raise. Dates are milliseconds since the epoch. */
module Records {
  import opened Common

  type Id = string
  type Time = int

  datatype Level = Beginner | Intermediate | Advanced
  datatype AssignmentType = Homework | Quiz | Exam | Project | Essay
  datatype EnrollmentStatus = Enrolled | Completed | Dropped

  /** An assignment's submission format. The stored document may hold any string, so a value
      outside 'text' | 'file' | 'both' is kept as UnknownFormat. */
  datatype SubmissionFormat = TextFormat | FileFormat | BothFormats | UnknownFormat(name: string)

  datatype SubmissionStatus = Submitted | Graded | Returned | Resubmitted

  /** The string stored in a submission's `status` property. */
  function StatusName(s: SubmissionStatus): string
  {
    match s
    case Submitted => "submitted"
    case Graded => "graded"
    case Returned => "returned"
    case Resubmitted => "resubmitted"
  }

  /** An entry of Course.enrolledStudents. */
  datatype EnrolledStudent = EnrolledStudent(studentId: Id, studentName: string, enrolledAt: Time)

  /** An entry of Course.assignments. */
  datatype AssignmentReference = AssignmentReference(
    assignmentId: Id, title: string, dueDate: Time, assignmentType: AssignmentType,
    maxPoints: real, submissionCount: Option<int>)

  datatype Course = Course(
    id: Id,
    title: string,
    description: string,
    instructorId: Id,
    instructorName: string,
    category: string,
    level: Level,
    duration: real,
    maxStudents: int,
    currentEnrollments: int,
    enrolledStudents: seq<EnrolledStudent>,
    assignments: seq<AssignmentReference>,
    isActive: bool,
    createdAt: Time,
    updatedAt: Time,
    tags: seq<string>,
    syllabus: Option<seq<string>>,
    prerequisites: Option<seq<string>>)

  datatype Enrollment = Enrollment(
    id: Id,
    courseId: Id,
    studentId: Id,
    studentName: string,
    studentEmail: string,
    enrolledAt: Time,
    status: EnrollmentStatus,
    progress: real,
    lastAccessedAt: Option<Time>)

  /** A student document. enrolledCourses holds course ids: the enrollment code compares and
      appends the bare course id string. */
  datatype Student = Student(
    id: Id,
    name: string,
    email: string,
    enrolledCourses: seq<Id>,
    createdAt: Time,
    updatedAt: Time,
    isActive: bool,
    academicLevel: Option<string>,
    major: Option<string>,
    profileImage: Option<string>)

  datatype Assignment = Assignment(
    id: Id,
    courseId: Id,
    title: string,
    description: string,
    instructions: Option<string>,
    dueDate: Time,
    maxPoints: real,
    assignmentType: AssignmentType,
    isActive: bool,
    createdAt: Time,
    updatedAt: Time,
    createdBy: Id,
    attachments: Option<seq<string>>,
    submissionFormat: SubmissionFormat,
    submissionCount: Option<int>,
    allowLateSubmissions: Option<bool>,
    allowMultipleSubmissions: Option<bool>)

  datatype SubmissionAttachment = SubmissionAttachment(
    id: Id,
    filename: string,
    originalFilename: string,
    fileSize: nat,
    mimeType: string,
    uploadUrl: string,
    uploadedAt: Time)

  datatype Submission = Submission(
    id: Id,
    assignmentId: Id,
    courseId: Id,
    studentId: Id,
    studentName: string,
    studentEmail: string,
    submissionText: Option<string>,
    attachments: seq<SubmissionAttachment>,
    submittedAt: Time,
    isLate: bool,
    status: SubmissionStatus,
    submissionNumber: int,
    grade: Option<real>,
    maxPoints: real,
    feedback: Option<string>,
    gradedAt: Option<Time>,
    gradedBy: Option<Id>,
    createdAt: Time,
    updatedAt: Time,
    isActive: bool)

  /** The business-rule errors the services throw; each comment gives the thrown message. */
  datatype Failure =
    | CourseNotFound                 // "Course not found"
    | CourseFull                     // "Course is full"
    | AlreadyEnrolled                // "Student already enrolled in this course"
    | AssignmentNotFound             // "Assignment not found"
    | AssignmentNotFoundOrInactive   // "Assignment not found or inactive"
    | StudentNotEnrolled             // "Student not enrolled in this course"
    | TextRequired                   // "Text submission is required for this assignment"
    | FileRequired                   // "File submission is required for this assignment"
    | TextOrFileRequired             // "Either text or file submission is required for this assignment"
    | InvalidSubmissionFormat        // "Invalid submission format specified in assignment"
    | MultipleSubmissionsNotAllowed  // "Multiple submissions are not allowed for this assignment"
    | LateSubmissionsNotAllowed      // "Late submissions are not allowed for this assignment"
    | SubmissionNotFound             // "Submission not found"
    | GradeOutOfRange(maxPoints: real) // "Grade must be between 0 and <maxPoints>"
    | GradingFailed                  // "Failed to grade submission"
}

=== FILE: submission_ledger.dfy ===
/** The submissions store of src/services/submissionService.ts: creation through the gates,
    grading, status changes, soft deletion, and the submission-count refresh on the assignment. */
module SubmissionLedger {
  import opened Common
  import opened Records
  import opened SubmissionRules
  import opened AssignmentCatalog
  import CourseDirectory

  /** No two stored submissions share an id. */
  ghost predicate IdsUnique(rows: seq<Submission>)
  {
    forall i, j :: 0 <= i < j < |rows| ==> rows[i].id != rows[j].id
  }

  /** Active submissions of one student to one assignment carry distinct numbers. */
  ghost predicate NumbersDistinct(rows: seq<Submission>)
  {
    forall i, j :: 0 <= i < j < |rows| && rows[i].isActive && rows[j].isActive
      && rows[i].assignmentId == rows[j].assignmentId && rows[i].studentId == rows[j].studentId
      ==> rows[i].submissionNumber != rows[j].submissionNumber
  }

  /** Every submission number is at least 1. */
  ghost predicate NumbersPositive(rows: seq<Submission>)
  {
    forall i :: 0 <= i < |rows| ==> rows[i].submissionNumber >= 1
  }

  /** Every recorded grade lies between 0 and the submission's maxPoints, both inclusive. */
  ghost predicate GradesInRange(rows: seq<Submission>)
  {
    forall i :: 0 <= i < |rows| && rows[i].grade.Some? ==> 0.0 <= rows[i].grade.value <= rows[i].maxPoints
  }

  ghost predicate LedgerInvariant(rows: seq<Submission>)
  {
    IdsUnique(rows) && NumbersDistinct(rows) && NumbersPositive(rows) && GradesInRange(rows)
  }

  /** The submission document step 6 of createSubmission builds. */
  function NewSubmission(req: SubmissionRequest, a: Assignment, id: Id, number: int, now: Time): (s: Submission)
    ensures s.status == Submitted && s.isActive && s.grade.None?
    ensures s.courseId == a.courseId && s.maxPoints == a.maxPoints
    ensures s.attachments == (if req.attachments.Some? then req.attachments.value else [])
    ensures s.isLate <==> now > a.dueDate
  {
    Submission(id, req.assignmentId, a.courseId, req.studentId, req.studentName, req.studentEmail,
      req.submissionText, if req.attachments.Some? then req.attachments.value else [], now,
      IsLate(now, a.dueDate), Submitted, number, None, a.maxPoints, None, None, None, now, now, true)
  }

  /** The outcome of createSubmission, gate by gate: the assignment must exist and be active,
      its course must exist and list the student, the format rule must hold, the numbering
      rule must allow another submission, and a late submission needs the late flag. */
  function CreateOutcome(assignments: seq<Assignment>, courses: map<Id, Course>, rows: seq<Submission>,
                         req: SubmissionRequest, id: Id, now: Time): (r: Result<Submission, Failure>)
    ensures r.Ok? ==> FindById(assignments, req.assignmentId).Some?
    ensures r.Ok? ==>
      var a := FindById(assignments, req.assignmentId).value;
      && a.isActive
      && a.courseId in courses && CourseDirectory.IsListed(courses[a.courseId], req.studentId)
      && FormatCheck(a.submissionFormat, HasText(req.submissionText), HasFiles(req.attachments)).None?
      && (r.value.isLate ==> Flag(a.allowLateSubmissions))
      && r.value.assignmentId == req.assignmentId && r.value.studentId == req.studentId && r.value.id == id
      && (forall s :: s in rows && s.assignmentId == req.assignmentId && s.studentId == req.studentId && s.isActive
            ==> s.submissionNumber < r.value.submissionNumber)
  {
    var found := FindById(assignments, req.assignmentId);
    if found.None? || !found.value.isActive then Err(AssignmentNotFoundOrInactive)
    else
      var a := found.value;
      if a.courseId !in courses then Err(CourseNotFound)
      else if !CourseDirectory.IsListed(courses[a.courseId], req.studentId) then Err(StudentNotEnrolled)
      else
        var format := FormatCheck(a.submissionFormat, HasText(req.submissionText), HasFiles(req.attachments));
        if format.Some? then Err(format.value)
        else
          var priors := PriorSubmissions(rows, req.assignmentId, req.studentId);
          var number := NextNumber(priors, a.allowMultipleSubmissions);
          if number.Err? then Err(number.error)
          else if LateCheck(now, a).Some? then Err(LateSubmissionsNotAllowed)
          else
            var s := NewSubmission(req, a, id, number.value, now);
            assert forall p :: (p in rows && p.assignmentId == req.assignmentId && p.studentId == req.studentId && p.isActive)
                                ==> p.submissionNumber < s.submissionNumber by {
              forall p | p in rows && p.assignmentId == req.assignmentId && p.studentId == req.studentId && p.isActive
                ensures p.submissionNumber < s.submissionNumber
              {
                assert p in priors;
              }
            }
            Ok(s)
  }

  /** The refusals of createSubmission, in the order the gates are checked. */
  lemma CreateRefusals(assignments: seq<Assignment>, courses: map<Id, Course>, rows: seq<Submission>,
                       req: SubmissionRequest, id: Id, now: Time)
    ensures FindById(assignments, req.assignmentId).None? ==>
      CreateOutcome(assignments, courses, rows, req, id, now) == Err(AssignmentNotFoundOrInactive)
    ensures FindById(assignments, req.assignmentId).Some? ==>
      var r := CreateOutcome(assignments, courses, rows, req, id, now);
      var a := FindById(assignments, req.assignmentId).value;
      var listed := a.courseId in courses && CourseDirectory.IsListed(courses[a.courseId], req.studentId);
      var format := FormatCheck(a.submissionFormat, HasText(req.submissionText), HasFiles(req.attachments));
      var priors := PriorSubmissions(rows, req.assignmentId, req.studentId);
      && (!a.isActive ==> r == Err(AssignmentNotFoundOrInactive))
      && (a.isActive && a.courseId !in courses ==> r == Err(CourseNotFound))
      && ((a.isActive && a.courseId in courses && !listed) ==> r == Err(StudentNotEnrolled))
      && ((a.isActive && listed && format.Some?) ==> r == Err(format.value))
      && ((a.isActive && listed && format.None? && priors != [] && !Flag(a.allowMultipleSubmissions))
          ==> r == Err(MultipleSubmissionsNotAllowed))
      && ((a.isActive && listed && format.None? && NextNumber(priors, a.allowMultipleSubmissions).Ok?
           && LateCheck(now, a).Some?) ==> r == Err(LateSubmissionsNotAllowed))
      && ((a.isActive && listed && format.None? && NextNumber(priors, a.allowMultipleSubmissions).Ok?
           && LateCheck(now, a).None?) ==> r.Ok?)
      && (r.Ok? ==> r.value == NewSubmission(req, a, id, NextNumber(priors, a.allowMultipleSubmissions).value, now))
      && ((r.Ok? && priors == []) ==> r.value.submissionNumber == 1)
  {
  }

  /** Lateness is refused only for a late submission to an assignment without the late flag,
      so an on-time one is never refused for lateness; a stored late submission is marked late
      and its assignment allows late submissions. */
  lemma LatePolicy(assignments: seq<Assignment>, courses: map<Id, Course>, rows: seq<Submission>,
                   req: SubmissionRequest, id: Id, now: Time)
    requires FindById(assignments, req.assignmentId).Some?
    ensures var r := CreateOutcome(assignments, courses, rows, req, id, now);
      var a := FindById(assignments, req.assignmentId).value;
      && (r == Err(LateSubmissionsNotAllowed) ==> now > a.dueDate && !Flag(a.allowLateSubmissions))
      && (r.Ok? && now > a.dueDate ==> Flag(a.allowLateSubmissions) && r.value.isLate)
  {
  }

  /** Storing the created submission keeps the ledger invariant. */
  lemma CreatePreserves(assignments: seq<Assignment>, courses: map<Id, Course>, rows: seq<Submission>,
                        req: SubmissionRequest, id: Id, now: Time)
    requires LedgerInvariant(rows)
    requires forall k :: 0 <= k < |rows| ==> rows[k].id != id
    requires CreateOutcome(assignments, courses, rows, req, id, now).Ok?
    ensures LedgerInvariant(rows + [CreateOutcome(assignments, courses, rows, req, id, now).value])
  {
    CreatedRow(assignments, courses, rows, req, id, now);
    AppendPreserves(rows, CreateOutcome(assignments, courses, rows, req, id, now).value);
  }

  /** A stored submission starts ungraded and active, and its number is positive when every
      stored number is. */
  lemma CreatedRow(assignments: seq<Assignment>, courses: map<Id, Course>, rows: seq<Submission>,
                   req: SubmissionRequest, id: Id, now: Time)
    requires NumbersPositive(rows)
    requires CreateOutcome(assignments, courses, rows, req, id, now).Ok?
    ensures var s := CreateOutcome(assignments, courses, rows, req, id, now).value;
      s.grade.None? && s.isActive && s.status == Submitted && s.submissionNumber >= 1
  {
    var a := FindById(assignments, req.assignmentId).value;
    var priors := PriorSubmissions(rows, req.assignmentId, req.studentId);
    assert forall k :: 0 <= k < |priors| ==> priors[k] in rows;
    NextNumberPositive(priors, a.allowMultipleSubmissions);
  }

  /** Storing an ungraded row with a fresh id and a number above every active number of the
      same student and assignment keeps the ledger invariant. */
  lemma AppendPreserves(rows: seq<Submission>, s: Submission)
    requires LedgerInvariant(rows)
    requires forall k :: 0 <= k < |rows| ==> rows[k].id != s.id
    requires s.grade.None? && s.submissionNumber >= 1
    requires forall p :: (p in rows && p.assignmentId == s.assignmentId && p.studentId == s.studentId && p.isActive)
                         ==> p.submissionNumber < s.submissionNumber
    ensures LedgerInvariant(rows + [s])
  {
    var rows' := rows + [s];
    forall i, j | 0 <= i < j < |rows'| && rows'[i].isActive && rows'[j].isActive
      && rows'[i].assignmentId == rows'[j].assignmentId && rows'[i].studentId == rows'[j].studentId
      ensures rows'[i].submissionNumber != rows'[j].submissionNumber
    {
      if j == |rows| {
        assert rows'[i] in rows;
      }
    }
  }

  /** Replacing a row with one that keeps its identity, its owner and its number, does not
      revive it and records only an in-range grade keeps the ledger invariant. */
  lemma ReplacePreserves(rows: seq<Submission>, i: nat, x: Submission)
    requires LedgerInvariant(rows) && i < |rows|
    requires x.id == rows[i].id && x.assignmentId == rows[i].assignmentId && x.studentId == rows[i].studentId
    requires x.submissionNumber == rows[i].submissionNumber
    requires x.isActive ==> rows[i].isActive
    requires x.grade.Some? ==> 0.0 <= x.grade.value <= x.maxPoints
    ensures LedgerInvariant(rows[i := x])
  {
  }

  /** The graded copy: grade, feedback, grader, grading time, status 'graded' and the update time
      change, and nothing else. */
  function GradedCopy(s: Submission, grade: real, feedback: Option<string>, gradedBy: Id, now: Time): (r: Submission)
    ensures r.grade == Some(grade) && r.status == Graded && r.gradedBy == Some(gradedBy) && r.feedback == feedback
    ensures r.(grade := s.grade, feedback := s.feedback, gradedAt := s.gradedAt, gradedBy := s.gradedBy,
               status := s.status, updatedAt := s.updatedAt) == s
  {
    s.(grade := Some(grade), feedback := feedback, gradedAt := Some(now), gradedBy := Some(gradedBy),
       status := Graded, updatedAt := now)
  }

  /** The grade check: both bounds are inclusive. */
  predicate GradeInRange(grade: real, maxPoints: real)
  {
    !(grade < 0.0 || grade > maxPoints)
  }

  /** The bounds of the grade check are inclusive at both ends and nothing outside them passes. */
  lemma GradeBounds(maxPoints: real, grade: real)
    requires maxPoints >= 0.0
    ensures GradeInRange(0.0, maxPoints) && GradeInRange(maxPoints, maxPoints)
    ensures GradeInRange(grade, maxPoints) <==> 0.0 <= grade <= maxPoints
  {
  }

  /** The error gradeSubmission's catch block hands to its caller: "Submission not found" is
      passed on and every other error is replaced by "Failed to grade submission". */
  function ReportedGradeFailure(f: Failure): (r: Failure)
    ensures f == SubmissionNotFound ==> r == f
    ensures f != SubmissionNotFound ==> r == GradingFailed
  {
    if f == SubmissionNotFound then f else GradingFailed
  }

  /** gradeSubmission as written: the grade check's error passes through the catch block. */
  function GradeOutcomeAsWritten(rows: seq<Submission>, id: Id, grade: real, feedback: Option<string>,
                                 gradedBy: Id, now: Time): (r: Result<Submission, Failure>)
    ensures FindActive(rows, id).None? ==> r == Err(SubmissionNotFound)
    ensures r.Ok? ==> FindActive(rows, id).Some? && GradeInRange(grade, rows[FindActive(rows, id).value].maxPoints)
    ensures FindActive(rows, id).Some? && GradeInRange(grade, rows[FindActive(rows, id).value].maxPoints) ==>
      r == Ok(GradedCopy(rows[FindActive(rows, id).value], grade, feedback, gradedBy, now))
  {
    var found := FindActive(rows, id);
    if found.None? then Err(ReportedGradeFailure(SubmissionNotFound))
    else if !GradeInRange(grade, rows[found.value].maxPoints) then
      Err(ReportedGradeFailure(GradeOutOfRange(rows[found.value].maxPoints)))
    else Ok(GradedCopy(rows[found.value], grade, feedback, gradedBy, now))
  }

  /** As written, a grade outside [0, maxPoints] (such as one above maxPoints, which the route's
      own validation lets through) reaches the caller as "Failed to grade submission",
      indistinguishable from a store failure, and never as the range message. */
  lemma GradeRangeErrorMasked(rows: seq<Submission>, id: Id, grade: real, feedback: Option<string>,
                              gradedBy: Id, now: Time)
    requires FindActive(rows, id).Some?
    requires !GradeInRange(grade, rows[FindActive(rows, id).value].maxPoints)
    ensures GradeOutcomeAsWritten(rows, id, grade, feedback, gradedBy, now) == Err(GradingFailed)
    ensures forall m :: GradeOutcomeAsWritten(rows, id, grade, feedback, gradedBy, now) != Err(GradeOutOfRange(m))
  {
  }

  /** The copy written by updateSubmissionStatus: only status and the update time change. */
  function WithStatus(s: Submission, status: SubmissionStatus, now: Time): (r: Submission)
    ensures r.status == status && r.updatedAt == now
    ensures r.(status := s.status, updatedAt := s.updatedAt) == s
  {
    s.(status := status, updatedAt := now)
  }

  /** The final row of deleteSubmission: the copy read before the interim status write, with
      isActive cleared, so the interim status is lost. */
  lemma DeleteKeepsStatus(rows: seq<Submission>, i: nat, now: Time, later: Time)
    requires i < |rows|
    ensures var interim := rows[i := WithStatus(rows[i], Submitted, now)];
      interim[i := rows[i].(isActive := false, updatedAt := later)][i].status == rows[i].status
  {
  }

  /** The assignments after the submission-count refresh: the assignment found by id, if any,
      gets the count and a new update time; every other assignment stays as it was. */
  function Refreshed(assignments: seq<Assignment>, assignmentId: Id, count: int, now: Time): (r: seq<Assignment>)
    ensures |r| == |assignments|
    ensures FindById(assignments, assignmentId).None? ==> r == assignments
    ensures FindById(assignments, assignmentId).Some? ==>
      FindById(r, assignmentId) == Some(FindById(assignments, assignmentId).value.(submissionCount := Some(count), updatedAt := now))
    ensures FindById(assignments, assignmentId).Some? ==>
      forall k :: 0 <= k < |r| && k != IndexOfId(assignments, assignmentId).value ==> r[k] == assignments[k]
    ensures IdsDistinct(assignments) ==> IdsDistinct(r)
  {
    var found := IndexOfId(assignments, assignmentId);
    if found.None? then assignments
    else
      var i := found.value;
      var r := assignments[i := assignments[i].(submissionCount := Some(count), updatedAt := now)];
      IndexOfIdReplace(assignments, assignmentId, r[i]);
      r
  }

  class Ledger {
    var submissions: seq<Submission>
    const catalog: Catalog

    ghost predicate Valid()
      reads this, catalog
    {
      LedgerInvariant(submissions) && catalog.Valid()
    }

    constructor (catalog: Catalog)
      requires catalog.Valid()
      ensures Valid() && submissions == [] && this.catalog == catalog
    {
      submissions := [];
      this.catalog := catalog;
    }

    /** getSubmissionById: active submissions only. */
    function GetSubmissionById(id: Id): (r: Option<Submission>)
      reads this
      ensures r.Some? ==> r.value in submissions && r.value.id == id && r.value.isActive
      ensures r.None? ==> forall s :: s in submissions && s.id == id ==> !s.isActive
    {
      var i := FindActive(submissions, id);
      if i.None? then None else Some(submissions[i.value])
    }

    /** getAssignmentSubmissions. */
    function GetAssignmentSubmissions(assignmentId: Id, page: Option<nat>, limit: Option<nat>, status: Option<string>): Page
      reads this
    {
      AssignmentSubmissions(submissions, assignmentId, page, limit, status)
    }

    /** getStudentSubmissions. */
    function GetStudentSubmissions(studentId: Id, courseId: Option<string>): seq<Submission>
      reads this
    {
      StudentSubmissions(submissions, studentId, courseId)
    }

    /** updateAssignmentSubmissionCount: counts the active submissions of the assignment and,
        when the assignment exists (active or not), writes the count into it. */
    method RefreshSubmissionCount(assignmentId: Id, now: Time)
      requires catalog.Valid()
      modifies catalog
      ensures catalog.Valid()
      ensures catalog.assignments == Refreshed(old(catalog.assignments), assignmentId, CountActive(submissions, assignmentId), now)
    {
      var count := CountActive(submissions, assignmentId);
      var found := catalog.GetAssignmentById(assignmentId);
      if found.Some? {
        CountPatchOnlySetsCount(catalog.assignments[IndexOfId(catalog.assignments, assignmentId).value], count, now);
        var _ := catalog.UpdateAssignment(assignmentId, CountPatch(count), now);
      }
    }

    /** createSubmission: runs the gates in order; on success stores the new submission and
        refreshes the assignment's submissionCount. A refusal stores nothing. */
    method CreateSubmission(req: SubmissionRequest, id: Id, now: Time) returns (r: Result<Submission, Failure>)
      requires Valid()
      requires forall k :: 0 <= k < |submissions| ==> submissions[k].id != id
      modifies this, catalog
      ensures Valid()
      ensures r == CreateOutcome(old(catalog.assignments), catalog.directory.courses, old(submissions), req, id, now)
      ensures r.Err? ==> submissions == old(submissions) && catalog.assignments == old(catalog.assignments)
      ensures r.Ok? ==> submissions == old(submissions) + [r.value]
      ensures r.Ok? ==>
        catalog.assignments == Refreshed(old(catalog.assignments), req.assignmentId, CountActive(submissions, req.assignmentId), now)
    {
      var found := catalog.GetAssignmentById(req.assignmentId);
      if found.None? || !found.value.isActive {
        return Err(AssignmentNotFoundOrInactive);
      }
      var assignment := found.value;
      var course := catalog.directory.GetCourse(assignment.courseId);
      if course.None? {
        return Err(CourseNotFound);
      }
      if !CourseDirectory.IsListed(course.value, req.studentId) {
        return Err(StudentNotEnrolled);
      }
      var format := FormatCheck(assignment.submissionFormat, HasText(req.submissionText), HasFiles(req.attachments));
      if format.Some? {
        return Err(format.value);
      }
      var number := NextNumber(PriorSubmissions(submissions, req.assignmentId, req.studentId),
                               assignment.allowMultipleSubmissions);
      if number.Err? {
        return Err(number.error);
      }
      if IsLate(now, assignment.dueDate) && !Flag(assignment.allowLateSubmissions) {
        return Err(LateSubmissionsNotAllowed);
      }
      var submission := NewSubmission(req, assignment, id, number.value, now);
      CreatePreserves(catalog.assignments, catalog.directory.courses, submissions, req, id, now);
      submissions := submissions + [submission];
      RefreshSubmissionCount(req.assignmentId, now);
      r := Ok(submission);
    }

    /** gradeSubmission: an unknown or inactive id is "Submission not found"; a grade outside
        [0, maxPoints] is refused; otherwise the graded copy replaces the row. */
    method GradeSubmission(id: Id, grade: real, feedback: Option<string>, gradedBy: Id, now: Time)
      returns (r: Result<Submission, Failure>)
      requires Valid()
      modifies this
      ensures Valid()
      ensures FindActive(old(submissions), id).None? ==> r == Err(SubmissionNotFound)
      ensures FindActive(old(submissions), id).Some? && !GradeInRange(grade, old(submissions)[FindActive(old(submissions), id).value].maxPoints)
        ==> r == Err(GradeOutOfRange(old(submissions)[FindActive(old(submissions), id).value].maxPoints))
      ensures FindActive(old(submissions), id).Some? && GradeInRange(grade, old(submissions)[FindActive(old(submissions), id).value].maxPoints)
        ==> r.Ok?
      ensures r.Err? ==> submissions == old(submissions)
      ensures r.Ok? ==>
        var i := FindActive(old(submissions), id).value;
        && FindActive(old(submissions), id).Some?
        && r.value == GradedCopy(old(submissions)[i], grade, feedback, gradedBy, now)
        && submissions == old(submissions)[i := r.value]
    {
      var found := FindActive(submissions, id);
      if found.None? {
        return Err(SubmissionNotFound);
      }
      var i := found.value;
      var submission := submissions[i];
      if grade < 0.0 || grade > submission.maxPoints {
        return Err(GradeOutOfRange(submission.maxPoints));
      }
      var updated := GradedCopy(submission, grade, feedback, gradedBy, now);
      ReplacePreserves(submissions, i, updated);
      submissions := submissions[i := updated];
      r := Ok(updated);
    }

    /** updateSubmissionStatus: any of the four statuses from any status; only status and the
        update time change. */
    method UpdateSubmissionStatus(id: Id, status: SubmissionStatus, now: Time) returns (r: Result<Submission, Failure>)
      requires Valid()
      modifies this
      ensures Valid()
      ensures FindActive(old(submissions), id).None? ==> r == Err(SubmissionNotFound) && submissions == old(submissions)
      ensures FindActive(old(submissions), id).Some? ==>
        var i := FindActive(old(submissions), id).value;
        && r == Ok(WithStatus(old(submissions)[i], status, now))
        && submissions == old(submissions)[i := r.value]
    {
      var found := FindActive(submissions, id);
      if found.None? {
        return Err(SubmissionNotFound);
      }
      var i := found.value;
      var updated := WithStatus(submissions[i], status, now);
      ReplacePreserves(submissions, i, updated);
      submissions := submissions[i := updated];
      r := Ok(updated);
    }

    /** deleteSubmission: writes status 'submitted', then overwrites the row with the copy read
        before that write, with isActive cleared; then refreshes the assignment's count. */
    method DeleteSubmission(id: Id, now: Time) returns (r: Result<(), Failure>)
      requires Valid()
      modifies this, catalog
      ensures Valid()
      ensures FindActive(old(submissions), id).None? ==>
        r == Err(SubmissionNotFound) && submissions == old(submissions) && catalog.assignments == old(catalog.assignments)
      ensures FindActive(old(submissions), id).Some? ==>
        var i := FindActive(old(submissions), id).value;
        var aid := old(submissions)[i].assignmentId;
        && r == Ok(())
        && submissions == old(submissions)[i := old(submissions)[i].(isActive := false, updatedAt := now)]
        && catalog.assignments == Refreshed(old(catalog.assignments), aid, CountActive(submissions, aid), now)
    {
      var found := FindActive(submissions, id);
      if found.None? {
        return Err(SubmissionNotFound);
      }
      var i := found.value;
      var submission := submissions[i];
      var _ := UpdateSubmissionStatus(id, Submitted, now);
      var deleted := submission.(isActive := false, updatedAt := now);
      ReplacePreserves(submissions, i, deleted);
      submissions := submissions[i := deleted];
      RefreshSubmissionCount(submission.assignmentId, now);
      r := Ok(());
    }
  }

  /** After a successful create the assignment's submissionCount is the number of its active
      submissions, one more than before. */
  lemma CountAfterCreate(assignments: seq<Assignment>, rows: seq<Submission>, s: Submission, now: Time)
    requires s.isActive
    requires FindById(assignments, s.assignmentId).Some?
    ensures var count := CountActive(rows + [s], s.assignmentId);
      && count == CountActive(rows, s.assignmentId) + 1
      && FindById(Refreshed(assignments, s.assignmentId, count, now), s.assignmentId).value.submissionCount == Some(count)
  {
    CountActiveAppend(rows, s, s.assignmentId);
  }

  /** After a successful delete the assignment's submissionCount is the number of its active
      submissions, one fewer than before. */
  lemma CountAfterDelete(assignments: seq<Assignment>, rows: seq<Submission>, i: nat, now: Time)
    requires i < |rows| && rows[i].isActive
    requires FindById(assignments, rows[i].assignmentId).Some?
    ensures var aid := rows[i].assignmentId;
      var count := CountActive(rows[i := rows[i].(isActive := false, updatedAt := now)], aid);
      && count == CountActive(rows, aid) - 1
      && FindById(Refreshed(assignments, aid, count, now), aid).value.submissionCount == Some(count)
  {
    DeactivateLowersCount(rows, i, now);
  }
}

=== FILE: submission_rules.dfy ===
/** The decision rules of src/services/submissionService.ts: the format check, submission
    numbering, lateness, the active-submission count and the listing queries. */
module SubmissionRules {
  import opened Common
  import opened Records
  import opened Text
  import opened Query

  /** The body of a createSubmission call. */
  datatype SubmissionRequest = SubmissionRequest(
    assignmentId: Id,
    studentId: Id,
    studentName: string,
    studentEmail: string,
    submissionText: Option<string>,
    attachments: Option<seq<SubmissionAttachment>>)

  /** hasText: the text is present and not empty once trimmed. */
  predicate HasText(text: Option<string>)
  {
    text.Some? && |Trim(text.value)| > 0
  }

  /** hasFiles: the attachment list is present and not empty. */
  predicate HasFiles(attachments: Option<seq<SubmissionAttachment>>)
  {
    attachments.Some? && |attachments.value| > 0
  }

  /** Text counts exactly when it holds a character other than whitespace. */
  lemma HasTextIffNotBlank(text: Option<string>)
    ensures HasText(text) <==> text.Some? && !IsBlank(text.value)
  {
    if text.Some? {
      TrimmedEmptyIffBlank(text.value);
    }
  }

  /** validateSubmissionFormat: the error it throws, or None when the submission is acceptable. */
  function FormatCheck(format: SubmissionFormat, hasText: bool, hasFiles: bool): (r: Option<Failure>)
    ensures r.Some? ==> r.value in {TextRequired, FileRequired, TextOrFileRequired, InvalidSubmissionFormat}
  {
    match format
    case TextFormat => if hasText then None else Some(TextRequired)
    case FileFormat => if hasFiles then None else Some(FileRequired)
    case BothFormats => if hasText || hasFiles then None else Some(TextOrFileRequired)
    case UnknownFormat(_) => Some(InvalidSubmissionFormat)
  }

  /** The format rule in words: 'text' needs text, 'file' needs a file, 'both' needs either
      one, and any other stored value is refused whatever is submitted. */
  lemma FormatCheckAccepts(format: SubmissionFormat, hasText: bool, hasFiles: bool)
    ensures FormatCheck(format, hasText, hasFiles).None? <==>
      (format == TextFormat && hasText) || (format == FileFormat && hasFiles)
      || (format == BothFormats && (hasText || hasFiles))
    ensures format.UnknownFormat? ==> FormatCheck(format, hasText, hasFiles) == Some(InvalidSubmissionFormat)
  {
  }

  /** Submitting more (adding text or files) never turns an accepted submission into a refused one. */
  lemma FormatCheckMonotone(format: SubmissionFormat, t: bool, f: bool, t': bool, f': bool)
    requires (t ==> t') && (f ==> f')
    requires FormatCheck(format, t, f).None?
    ensures FormatCheck(format, t', f').None?
  {
  }

  /** 'both' accepts exactly what 'text' or 'file' would accept. */
  lemma BothIsEither(t: bool, f: bool)
    ensures FormatCheck(BothFormats, t, f).None? <==>
      FormatCheck(TextFormat, t, f).None? || FormatCheck(FileFormat, t, f).None?
  {
  }

  /** The rows getNextSubmissionNumber reads: active submissions of this student for this assignment. */
  function PriorSubmissions(rows: seq<Submission>, assignmentId: Id, studentId: Id): (r: seq<Submission>)
    ensures forall s :: s in r <==> s in rows && s.assignmentId == assignmentId && s.studentId == studentId && s.isActive
  {
    Filter(rows, (s: Submission) => s.assignmentId == assignmentId && s.studentId == studentId && s.isActive)
  }

  /** The largest submission number among the rows (the head of the DESC-ordered query). */
  function MaxNumber(rows: seq<Submission>): (m: int)
    requires |rows| > 0
    ensures forall k :: 0 <= k < |rows| ==> rows[k].submissionNumber <= m
    ensures exists k :: 0 <= k < |rows| && rows[k].submissionNumber == m
  {
    if |rows| == 1 then rows[0].submissionNumber
    else
      var m := MaxNumber(rows[1..]);
      assert forall k :: 1 <= k < |rows| ==> rows[k] == rows[1..][k - 1];
      if rows[0].submissionNumber >= m then rows[0].submissionNumber else m
  }

  /** getNextSubmissionNumber: 1 for a first submission; a repeat is refused unless the
      assignment allows multiple submissions, and then gets one more than the highest number. */
  function NextNumber(priors: seq<Submission>, allowMultiple: Option<bool>): (r: Result<int, Failure>)
    ensures priors == [] ==> r == Ok(1)
    ensures priors != [] && !Flag(allowMultiple) ==> r == Err(MultipleSubmissionsNotAllowed)
    ensures priors != [] && Flag(allowMultiple) ==> r.Ok?
    ensures r.Ok? ==> forall k :: 0 <= k < |priors| ==> priors[k].submissionNumber < r.value
    ensures r.Ok? && priors != [] ==> exists k :: 0 <= k < |priors| && priors[k].submissionNumber == r.value - 1
  {
    if priors == [] then Ok(1)
    else if !Flag(allowMultiple) then Err(MultipleSubmissionsNotAllowed)
    else Ok(MaxNumber(priors) + 1)
  }

  /** A new number is at least 1, given that the stored ones are. */
  lemma NextNumberPositive(priors: seq<Submission>, allowMultiple: Option<bool>)
    requires forall k :: 0 <= k < |priors| ==> priors[k].submissionNumber >= 1
    requires NextNumber(priors, allowMultiple).Ok?
    ensures NextNumber(priors, allowMultiple).value >= 1
  {
  }

  /** A submission is late exactly when it arrives after the due date. */
  predicate IsLate(now: Time, dueDate: Time)
  {
    now > dueDate
  }

  /** The late policy: a late submission is refused unless late submissions are allowed. */
  function LateCheck(now: Time, a: Assignment): (r: Option<Failure>)
    ensures r.Some? <==> now > a.dueDate && !Flag(a.allowLateSubmissions)
    ensures r.Some? ==> r.value == LateSubmissionsNotAllowed
  {
    if IsLate(now, a.dueDate) && !Flag(a.allowLateSubmissions) then Some(LateSubmissionsNotAllowed) else None
  }

  /** Whether a row counts towards an assignment's submissionCount. */
  predicate CountsFor(s: Submission, assignmentId: Id)
  {
    s.assignmentId == assignmentId && s.isActive
  }

  /** `SELECT VALUE COUNT(1) ... c.assignmentId = @assignmentId AND c.isActive = true`. */
  function CountActive(rows: seq<Submission>, assignmentId: Id): (n: nat)
    ensures n <= |rows|
  {
    if rows == [] then 0
    else CountActive(rows[..|rows| - 1], assignmentId) + (if CountsFor(rows[|rows| - 1], assignmentId) then 1 else 0)
  }

  /** The count is the number of rows the `WHERE` clause selects. */
  lemma {:induction false} CountActiveCountsMatches(rows: seq<Submission>, assignmentId: Id)
    ensures CountActive(rows, assignmentId) == |Filter(rows, (s: Submission) => CountsFor(s, assignmentId))|
  {
    if rows != [] {
      CountActiveCountsMatches(rows[..|rows| - 1], assignmentId);
    }
  }

  /** Storing a row adds one to its assignment's count exactly when the row is active. */
  lemma CountActiveAppend(rows: seq<Submission>, s: Submission, assignmentId: Id)
    ensures CountActive(rows + [s], assignmentId)
      == CountActive(rows, assignmentId) + (if CountsFor(s, assignmentId) then 1 else 0)
  {
    assert (rows + [s])[..|rows|] == rows;
  }

  /** Replacing one row changes the count by what the old and new row contribute, and by nothing else. */
  lemma {:induction false} CountActiveReplace(rows: seq<Submission>, i: nat, s: Submission, assignmentId: Id)
    requires i < |rows|
    ensures CountActive(rows[i := s], assignmentId) + (if CountsFor(rows[i], assignmentId) then 1 else 0)
      == CountActive(rows, assignmentId) + (if CountsFor(s, assignmentId) then 1 else 0)
  {
    var n := |rows| - 1;
    if i == n {
      assert rows[i := s][..n] == rows[..n];
    } else {
      CountActiveReplace(rows[..n], i, s, assignmentId);
      assert rows[i := s][..n] == rows[..n][i := s];
    }
  }

  /** A soft delete of an active row lowers its assignment's count by exactly one. */
  lemma DeactivateLowersCount(rows: seq<Submission>, i: nat, now: Time)
    requires i < |rows| && rows[i].isActive
    ensures CountActive(rows[i := rows[i].(isActive := false, updatedAt := now)], rows[i].assignmentId)
      == CountActive(rows, rows[i].assignmentId) - 1
  {
    CountActiveReplace(rows, i, rows[i].(isActive := false, updatedAt := now), rows[i].assignmentId);
  }

  /** getSubmissionById's query: the position of the first active row with this id. */
  function FindActive(rows: seq<Submission>, id: Id): (r: Option<nat>)
    ensures r.Some? ==> r.value < |rows| && rows[r.value].id == id && rows[r.value].isActive
    ensures r.Some? ==> forall k :: 0 <= k < r.value ==> rows[k].id != id || !rows[k].isActive
    ensures r.None? ==> forall k :: 0 <= k < |rows| ==> rows[k].id != id || !rows[k].isActive
  {
    if rows == [] then None
    else if rows[0].id == id && rows[0].isActive then Some(0)
    else
      var t := FindActive(rows[1..], id);
      if t.None? then None else Some(t.value + 1)
  }

  /** The result of getAssignmentSubmissions. */
  datatype Page = Page(submissions: seq<Submission>, total: nat, page: nat, limit: nat)

  /** `options?.page || 1` and `options?.limit || 50`: an absent or zero value takes the default. */
  function OrDefault(o: Option<nat>, default: nat): nat
  {
    if o.None? || o.value == 0 then default else o.value
  }

  /** A present, non-empty filter string (JavaScript truthiness). */
  predicate Given(o: Option<string>)
  {
    o.Some? && o.value != ""
  }

  /** `OFFSET offset LIMIT limit` over an ordered result. */
  function Window<T>(s: seq<T>, offset: nat, limit: nat): (r: seq<T>)
    ensures |r| <= limit
    ensures |r| == if offset >= |s| then 0 else if offset + limit <= |s| then limit else |s| - offset
    ensures forall k :: 0 <= k < |r| ==> r[k] == s[offset + k]
  {
    if offset >= |s| then [] else if offset + limit <= |s| then s[offset..offset + limit] else s[offset..]
  }

  /** The number of rows before a page. */
  function Offset(page: nat, limit: nat): nat
    requires page >= 1
  {
    (page - 1) * limit
  }

  /** Newest first: ordering by submittedAt DESC is ordering by its negation ascending. */
  function Newest(s: Submission): int
  {
    -s.submittedAt
  }

  /** The rows getAssignmentSubmissions counts and pages: active, of this assignment, and of
      the requested status when one is given. */
  function AssignmentMatches(rows: seq<Submission>, assignmentId: Id, status: Option<string>): (r: seq<Submission>)
    ensures forall s :: s in r <==>
      (s in rows && s.assignmentId == assignmentId && s.isActive && (Given(status) ==> StatusName(s.status) == status.value))
  {
    Filter(rows, (s: Submission) => s.assignmentId == assignmentId && s.isActive
      && (Given(status) ==> StatusName(s.status) == status.value))
  }

  /** The matching rows, newest first. */
  function AssignmentOrdered(rows: seq<Submission>, assignmentId: Id, status: Option<string>): (r: seq<Submission>)
    ensures SortedBy(r, Newest)
    ensures |r| == |AssignmentMatches(rows, assignmentId, status)|
    ensures forall s :: s in r ==> s in AssignmentMatches(rows, assignmentId, status)
    ensures multiset(r) == multiset(AssignmentMatches(rows, assignmentId, status))
  {
    var matches := AssignmentMatches(rows, assignmentId, status);
    var ordered := SortBy(matches, Newest);
    assert forall s :: s in ordered ==> s in matches by {
      forall s | s in ordered ensures s in matches {
        SortByMembers(matches, Newest, s);
      }
    }
    ordered
  }

  /** getAssignmentSubmissions: the total of matching rows and one page of them, newest first. */
  function AssignmentSubmissions(rows: seq<Submission>, assignmentId: Id, page: Option<nat>, limit: Option<nat>,
                                 status: Option<string>): (r: Page)
    ensures r.page >= 1 && r.limit >= 1
    ensures r.page == OrDefault(page, 1) && r.limit == OrDefault(limit, 50)
    ensures r.submissions == Window(AssignmentOrdered(rows, assignmentId, status), Offset(r.page, r.limit), r.limit)
    ensures r.total == |AssignmentMatches(rows, assignmentId, status)|
    ensures |r.submissions| <= r.limit
    ensures |r.submissions| > 0 ==> Offset(r.page, r.limit) + |r.submissions| <= r.total
    ensures forall k :: 0 <= k < |r.submissions| ==>
      r.submissions[k] == AssignmentOrdered(rows, assignmentId, status)[Offset(r.page, r.limit) + k]
  {
    var p := OrDefault(page, 1);
    var l := OrDefault(limit, 50);
    var ordered := AssignmentOrdered(rows, assignmentId, status);
    Page(Window(ordered, Offset(p, l), l), |AssignmentMatches(rows, assignmentId, status)|, p, l)
  }

  /** The listing is newest first. */
  lemma AssignmentPageNewestFirst(rows: seq<Submission>, assignmentId: Id, page: Option<nat>, limit: Option<nat>,
                                  status: Option<string>)
    ensures var r := AssignmentSubmissions(rows, assignmentId, page, limit, status);
      forall i, j :: 0 <= i < j < |r.submissions| ==> r.submissions[i].submittedAt >= r.submissions[j].submittedAt
  {
    var ordered := AssignmentOrdered(rows, assignmentId, status);
    var p := OrDefault(page, 1);
    var l := OrDefault(limit, 50);
    assert AssignmentSubmissions(rows, assignmentId, page, limit, status).submissions == Window(ordered, Offset(p, l), l);
    WindowNewestFirst(ordered, Offset(p, l), l);
  }

  /** The listing holds only active rows of the assignment with the requested status. */
  lemma AssignmentPageMatches(rows: seq<Submission>, assignmentId: Id, page: Option<nat>, limit: Option<nat>,
                              status: Option<string>)
    ensures var r := AssignmentSubmissions(rows, assignmentId, page, limit, status);
      forall s :: s in r.submissions ==>
        s in rows && s.assignmentId == assignmentId && s.isActive && (Given(status) ==> StatusName(s.status) == status.value)
  {
    var ordered := AssignmentOrdered(rows, assignmentId, status);
    var p := OrDefault(page, 1);
    var l := OrDefault(limit, 50);
    assert AssignmentSubmissions(rows, assignmentId, page, limit, status).submissions == Window(ordered, Offset(p, l), l);
    WindowMembers(ordered, Offset(p, l), l);
  }

  /** A window of a newest-first ordering is newest first. */
  lemma WindowNewestFirst(ordered: seq<Submission>, offset: nat, limit: nat)
    requires SortedBy(ordered, Newest)
    ensures var w := Window(ordered, offset, limit);
      forall i, j :: 0 <= i < j < |w| ==> w[i].submittedAt >= w[j].submittedAt
  {
    var w := Window(ordered, offset, limit);
    forall i, j | 0 <= i < j < |w|
      ensures w[i].submittedAt >= w[j].submittedAt
    {
      assert Newest(ordered[offset + i]) <= Newest(ordered[offset + j]);
    }
  }

  /** A window holds only rows of the sequence it is taken from. */
  lemma WindowMembers(ordered: seq<Submission>, offset: nat, limit: nat)
    ensures forall s :: s in Window(ordered, offset, limit) ==> s in ordered
  {
    var w := Window(ordered, offset, limit);
    forall s | s in w ensures s in ordered {
      var k :| 0 <= k < |w| && w[k] == s;
      assert s == ordered[offset + k];
    }
  }

  /** Every matching row is reached by paging: the k-th newest row is at position k % limit of
      page k / limit + 1. */
  lemma EveryMatchOnItsPage(rows: seq<Submission>, assignmentId: Id, limit: nat, status: Option<string>, k: nat)
    requires limit >= 1
    requires k < |AssignmentMatches(rows, assignmentId, status)|
    ensures var r := AssignmentSubmissions(rows, assignmentId, Some(k / limit + 1), Some(limit), status);
      k % limit < |r.submissions| && r.submissions[k % limit] == AssignmentOrdered(rows, assignmentId, status)[k]
  {
    var page := k / limit + 1;
    PageIsWindow(rows, assignmentId, page, limit, status);
    WindowAt(AssignmentOrdered(rows, assignmentId, status), limit, k);
  }

  /** Every matching row is listed on some page, whatever the page size. */
  lemma EveryMatchIsListed(rows: seq<Submission>, assignmentId: Id, limit: nat, status: Option<string>, x: Submission)
    requires limit >= 1
    requires x in AssignmentMatches(rows, assignmentId, status)
    ensures exists page: nat ::
      (page >= 1 && x in AssignmentSubmissions(rows, assignmentId, Some(page), Some(limit), status).submissions)
  {
    var ordered := AssignmentOrdered(rows, assignmentId, status);
    SameMultisetMember(ordered, AssignmentMatches(rows, assignmentId, status), x);
    var page := InSomeWindow(ordered, limit, x);
    PageIsWindow(rows, assignmentId, page, limit, status);
    assert page >= 1 && x in AssignmentSubmissions(rows, assignmentId, Some(page), Some(limit), status).submissions;
  }

  /** Every element of a sequence lies in the window of some page. */
  lemma InSomeWindow(ordered: seq<Submission>, limit: nat, x: Submission) returns (page: nat)
    requires limit >= 1 && x in ordered
    ensures page >= 1 && x in Window(ordered, Offset(page, limit), limit)
  {
    var k :| 0 <= k < |ordered| && ordered[k] == x;
    var slot;
    page, slot := PageSlot(ordered, limit, k);
  }

  /** Element k of a sequence sits at some slot of the window of some page. */
  lemma PageSlot(ordered: seq<Submission>, limit: nat, k: nat) returns (page: nat, slot: nat)
    requires limit >= 1 && k < |ordered|
    ensures page >= 1
    ensures slot < |Window(ordered, Offset(page, limit), limit)|
    ensures Window(ordered, Offset(page, limit), limit)[slot] == ordered[k]
  {
    page, slot := PageOfRow(k, limit);
  }

  /** Row k is slot k % limit of page k / limit + 1, as numbers. */
  lemma PageOfRow(k: nat, limit: nat) returns (page: nat, slot: nat)
    requires limit >= 1
    ensures page >= 1 && slot < limit && Offset(page, limit) + slot == k
  {
    PageArithmetic(k, limit);
    page, slot := k / limit + 1, k % limit;
  }

  /** Two sequences with the same multiset have the same members. */
  lemma SameMultisetMember(a: seq<Submission>, b: seq<Submission>, x: Submission)
    requires multiset(a) == multiset(b) && x in b
    ensures x in a
  {
    assert x in multiset(b);
  }

  /** An explicitly requested page is the window of the ordered matches that starts at its offset. */
  lemma PageIsWindow(rows: seq<Submission>, assignmentId: Id, page: nat, limit: nat, status: Option<string>)
    requires page >= 1 && limit >= 1
    ensures AssignmentSubmissions(rows, assignmentId, Some(page), Some(limit), status).submissions
      == Window(AssignmentOrdered(rows, assignmentId, status), Offset(page, limit), limit)
  {
  }

  /** Element k of a sequence is element k % limit of the window that starts page k / limit + 1. */
  lemma WindowAt(ordered: seq<Submission>, limit: nat, k: nat)
    requires limit >= 1 && k < |ordered|
    ensures var w := Window(ordered, Offset(k / limit + 1, limit), limit);
      k % limit < |w| && w[k % limit] == ordered[k]
  {
    PageArithmetic(k, limit);
  }

  /** Row k sits k % limit rows after the start of page k / limit + 1. */
  lemma PageArithmetic(k: nat, limit: nat)
    requires limit >= 1
    ensures Offset(k / limit + 1, limit) + k % limit == k && k % limit < limit
  {
    assert Offset(k / limit + 1, limit) == (k / limit) * limit;
  }

  /** getStudentSubmissions: the student's active rows, of one course when a course id is given,
      newest first. */
  function StudentSubmissions(rows: seq<Submission>, studentId: Id, courseId: Option<string>): (r: seq<Submission>)
    ensures forall i, j :: 0 <= i < j < |r| ==> r[i].submittedAt >= r[j].submittedAt
    ensures multiset(r) == multiset(Filter(rows, (s: Submission) => s.studentId == studentId && s.isActive
      && (Given(courseId) ==> s.courseId == courseId.value)))
  {
    var matches := Filter(rows, (s: Submission) => s.studentId == studentId && s.isActive
      && (Given(courseId) ==> s.courseId == courseId.value));
    var r := SortBy(matches, Newest);
    assert forall i, j :: 0 <= i < j < |r| ==> Newest(r[i]) <= Newest(r[j]);
    r
  }

  /** The student listing holds exactly the student's active rows (of the course, when given). */
  lemma StudentSubmissionsMembers(rows: seq<Submission>, studentId: Id, courseId: Option<string>, s: Submission)
    ensures s in StudentSubmissions(rows, studentId, courseId) <==>
      s in rows && s.studentId == studentId && s.isActive && (Given(courseId) ==> s.courseId == courseId.value)
  {
    SortByMembers(Filter(rows, (s: Submission) => s.studentId == studentId && s.isActive
      && (Given(courseId) ==> s.courseId == courseId.value)), Newest, s);
  }

  /** A soft-deleted row is invisible to every query: by id, by assignment and by student. */
  lemma InactiveIsHidden(rows: seq<Submission>, s: Submission, page: Option<nat>, limit: Option<nat>,
                         status: Option<string>, courseId: Option<string>)
    requires !s.isActive
    ensures s !in AssignmentSubmissions(rows, s.assignmentId, page, limit, status).submissions
    ensures s !in StudentSubmissions(rows, s.studentId, courseId)
    ensures s !in PriorSubmissions(rows, s.assignmentId, s.studentId)
    ensures FindActive(rows, s.id).Some? ==> rows[FindActive(rows, s.id).value] != s
  {
    AssignmentPageMatches(rows, s.assignmentId, page, limit, status);
    StudentSubmissionsMembers(rows, s.studentId, courseId, s);
  }
}

=== FILE: text.dfy ===
/** String helpers that the services rely on: trimming, splitting on a separator,
    and decimal rendering of numbers. */
module Text {

  /** The characters that String.prototype.trim removes (white space and line terminators). */
  predicate IsWhitespace(c: char)
  {
    || c == ' ' || c == '\t' || c == '\n' || c == '\r' || c == '\U{000B}' || c == '\U{000C}'
    || c == '\U{00A0}' || c == '\U{1680}' || ('\U{2000}' <= c <= '\U{200A}')
    || c == '\U{2028}' || c == '\U{2029}' || c == '\U{202F}' || c == '\U{205F}'
    || c == '\U{3000}' || c == '\U{FEFF}'
  }

  /** Drops leading white space. */
  function TrimStart(s: string): (r: string)
    ensures |r| <= |s| && r == s[|s| - |r|..]
    ensures r == [] || !IsWhitespace(r[0])
    ensures forall i :: 0 <= i < |s| - |r| ==> IsWhitespace(s[i])
  {
    if s != [] && IsWhitespace(s[0]) then TrimStart(s[1..]) else s
  }

  /** Drops trailing white space. */
  function TrimEnd(s: string): (r: string)
    ensures |r| <= |s| && r == s[..|r|]
    ensures r == [] || !IsWhitespace(r[|r| - 1])
    ensures forall i :: |r| <= i < |s| ==> IsWhitespace(s[i])
  {
    if s != [] && IsWhitespace(s[|s| - 1]) then TrimEnd(s[..|s| - 1]) else s
  }

  /** String.prototype.trim. */
  function Trim(s: string): string
  {
    TrimEnd(TrimStart(s))
  }

  /** True when every character of s is white space. */
  predicate IsBlank(s: string)
  {
    forall i :: 0 <= i < |s| ==> IsWhitespace(s[i])
  }

  /** `s.trim().length > 0` holds exactly when s has a character that is not white space. */
  lemma TrimmedEmptyIffBlank(s: string)
    ensures |Trim(s)| == 0 <==> IsBlank(s)
  {
    var t := TrimStart(s);
    if |Trim(s)| != 0 {
      var k := |s| - |t|;
      assert t != [] && !IsWhitespace(t[0]);
      assert s[k] == t[0];
    }
  }

  /** Index of the first occurrence of c in s. */
  function IndexOf(s: string, c: char): (i: nat)
    requires c in s
    ensures i < |s| && s[i] == c && c !in s[..i]
  {
    if s[0] == c then 0 else 1 + IndexOf(s[1..], c)
  }

  /** String.prototype.split with a one-character separator: the pieces between separators, in order. */
  function Split(s: string, sep: char): (parts: seq<string>)
    ensures |parts| >= 1
    ensures forall k :: 0 <= k < |parts| ==> sep !in parts[k]
    decreases |s|
  {
    if sep !in s then [s]
    else
      var i := IndexOf(s, sep);
      [s[..i]] + Split(s[i + 1..], sep)
  }

  /** Array.prototype.join with a one-character separator. */
  function Join(parts: seq<string>, sep: char): string
    requires |parts| >= 1
  {
    if |parts| == 1 then parts[0] else parts[0] + [sep] + Join(parts[1..], sep)
  }

  /** Joining the pieces of a split gives back the original string. */
  lemma {:induction false} JoinSplit(s: string, sep: char)
    ensures Join(Split(s, sep), sep) == s
    decreases |s|
  {
    if sep in s {
      var i := IndexOf(s, sep);
      JoinSplit(s[i + 1..], sep);
      assert s == s[..i] + [sep] + s[i + 1..];
    }
  }

  /** Splitting at a first separator: the piece before it, then the split of the rest. */
  lemma SplitAt(a: string, sep: char, b: string)
    requires sep !in a
    ensures Split(a + [sep] + b, sep) == [a] + Split(b, sep)
  {
    var s := a + [sep] + b;
    assert s[..|a|] == a;
    IndexOfFirst(s, sep, |a|);
    assert s[|a| + 1..] == b;
  }

  /** A position holding c with no c before it is the first index of c. */
  lemma {:induction false} IndexOfFirst(s: string, c: char, j: nat)
    requires j < |s| && s[j] == c && c !in s[..j]
    ensures IndexOf(s, c) == j
  {
    if j > 0 {
      assert s[0] == s[..j][0];
      assert s[1..][..j - 1] == s[1..j];
      assert forall x :: x in s[1..j] ==> x in s[..j];
      IndexOfFirst(s[1..], c, j - 1);
    }
  }

  /** Splitting a join of separator-free pieces gives back the pieces. */
  lemma {:induction false} SplitJoin(parts: seq<string>, sep: char)
    requires |parts| >= 1
    requires forall k :: 0 <= k < |parts| ==> sep !in parts[k]
    ensures Split(Join(parts, sep), sep) == parts
  {
    if |parts| > 1 {
      SplitAt(parts[0], sep, Join(parts[1..], sep));
      SplitJoin(parts[1..], sep);
      assert parts == [parts[0]] + parts[1..];
    }
  }

  /** The last piece of a split: the text after the last separator, or the whole string without one. */
  function LastPiece(s: string, sep: char): (r: string)
    ensures sep !in r
    ensures |r| <= |s|
    ensures sep !in s ==> r == s
    decreases |s|
  {
    if sep !in s then s else LastPiece(s[IndexOf(s, sep) + 1..], sep)
  }

  /** LastPiece of s equals the last element of Split(s): the JavaScript `split(sep).pop()`. */
  lemma {:induction false} LastPieceIsLastPart(s: string, sep: char)
    ensures Last(Split(s, sep)) == LastPiece(s, sep)
    decreases |s|
  {
    if sep in s {
      var i := IndexOf(s, sep);
      var rest := s[i + 1..];
      assert Split(s, sep) == [s[..i]] + Split(rest, sep);
      LastPieceIsLastPart(rest, sep);
      LastOfCons(s[..i], Split(rest, sep));
    }
  }

  /** The last element survives putting another one in front. */
  lemma LastOfCons<T>(x: T, xs: seq<T>)
    requires |xs| >= 1
    ensures Last([x] + xs) == Last(xs)
  {
  }

  /** The last element of a non-empty sequence (Array.prototype.pop's result). */
  function Last<T>(xs: seq<T>): T
    requires |xs| >= 1
  {
    xs[|xs| - 1]
  }

  /** The decimal digit for d. */
  function Digit(d: nat): (c: char)
    requires d < 10
    ensures '0' <= c <= '9'
  {
    "0123456789"[d]
  }

  /** The value of a decimal digit character. */
  function DigitValue(c: char): nat
    requires '0' <= c <= '9'
  {
    c as int - '0' as int
  }

  /** String(n) for a non-negative integer n: its decimal digits, most significant first. */
  function NatToString(n: nat): (s: string)
    ensures |s| >= 1
    ensures forall i :: 0 <= i < |s| ==> '0' <= s[i] <= '9'
    ensures |s| > 1 ==> s[0] != '0'
  {
    if n < 10 then [Digit(n)] else NatToString(n / 10) + [Digit(n % 10)]
  }

  /** Reads a string of decimal digits. */
  function ParseNat(s: string): nat
    requires forall i :: 0 <= i < |s| ==> '0' <= s[i] <= '9'
  {
    if s == [] then 0 else 10 * ParseNat(s[..|s| - 1]) + DigitValue(s[|s| - 1])
  }

  /** Reading back the decimal rendering of n gives n. */
  lemma {:induction false} ParseNatToString(n: nat)
    ensures ParseNat(NatToString(n)) == n
  {
    var s := NatToString(n);
    if n < 10 {
      DigitRoundTrip(n);
      assert s[..0] == [];
    } else {
      ParseNatToString(n / 10);
      DigitRoundTrip(n % 10);
      assert s[..|s| - 1] == NatToString(n / 10);
    }
  }

  /** A digit reads back as its value. */
  lemma DigitRoundTrip(d: nat)
    requires d < 10
    ensures DigitValue(Digit(d)) == d
  {
  }

  /** String(n).padStart(2, '0') for 1 <= n <= 12: a month number. */
  function Pad2(n: nat): (s: string)
    requires 1 <= n <= 12
  {
    if n < 10 then "0" + NatToString(n) else NatToString(n)
  }

  /** The padded month has exactly two digits and reads back as the month. */
  lemma Pad2Digits(n: nat)
    requires 1 <= n <= 12
    ensures |Pad2(n)| == 2
    ensures forall i :: 0 <= i < 2 ==> '0' <= Pad2(n)[i] <= '9'
    ensures ParseNat(Pad2(n)) == n
  {
    var s := Pad2(n);
    ParseNatToString(n);
    if n < 10 {
      assert s[..1] == "0";
      assert s[..0] == [];
    } else {
      assert |NatToString(n / 10)| == 1;
    }
  }
}

=== FILE: upload_middleware.dfy ===
/** The request-side upload helpers of src/middleware/uploadMiddleware.ts: the MIME allow-list
    filter, the multer limits, the classification of upload errors into responses, and the
    helpers that look at the files a request carries. */
module UploadMiddleware {
  import opened Common
  import opened Text
  import opened Records
  import SubmissionRules
  import BlobStorage

  /** The allow-list of the multer file filter. */
  const FilterAllowedMimeTypes: seq<string> := [
    "application/pdf",
    "application/msword",
    "application/vnd.openxmlformats-officedocument.wordprocessingml.document",
    "application/vnd.ms-excel",
    "application/vnd.openxmlformats-officedocument.spreadsheetml.sheet",
    "application/vnd.ms-powerpoint",
    "application/vnd.openxmlformats-officedocument.presentationml.presentation",
    "text/plain",
    "text/csv",
    "image/jpeg",
    "image/jpg",
    "image/png",
    "image/gif",
    "image/webp",
    "application/zip",
    "application/x-rar-compressed",
    "text/javascript",
    "text/typescript",
    "text/html",
    "text/css",
    "application/json"
  ]

  /** The multer limits: 10MB per file and 5 files per request. */
  const LimitFileSize: nat := 10 * 1024 * 1024
  const LimitFiles: nat := 5

  /** What the file filter tells multer: keep the file, or fail the upload with a message. */
  datatype FilterOutcome = Accept | Reject(message: string)

  /** fileFilter: a file is kept exactly when its MIME type is on the allow-list, which is the
      storage service's default list. */
  function FileFilter(file: BlobStorage.UploadedFile): (r: FilterOutcome)
    ensures r.Accept? <==> file.mimetype in FilterAllowedMimeTypes
    ensures r.Accept? <==> file.mimetype in BlobStorage.DefaultAllowedMimeTypes
    ensures r.Reject? ==> r.message == "File type '" + file.mimetype + "' is not allowed. Allowed types: " + Listing(FilterAllowedMimeTypes)
  {
    if file.mimetype in FilterAllowedMimeTypes then Accept
    else Reject("File type '" + file.mimetype + "' is not allowed. Allowed types: " + Listing(FilterAllowedMimeTypes))
  }

  /** The entries of a list separated by ", ". */
  function Listing(items: seq<string>): string
  {
    if items == [] then ""
    else if |items| == 1 then items[0]
    else items[0] + ", " + Listing(items[1..])
  }

  /** The middleware's limits are the storage service's defaults, and a file that fits the size
      limit passes the filter exactly when the storage service's default validation accepts it. */
  lemma FilterAgreesWithValidation(file: BlobStorage.UploadedFile)
    requires file.size <= LimitFileSize
    ensures LimitFileSize == BlobStorage.DefaultMaxFileSize && LimitFiles == BlobStorage.DefaultMaxFiles
    ensures FileFilter(file).Accept? <==> BlobStorage.ValidateFile(file, BlobStorage.NoOptions).None?
  {
  }

  /** What multer passes to the completion callback. */
  datatype UploadError =
    | MulterError(code: string, message: string)
    | OtherError(message: string)

  /** The three middleware factories, with the parameters their messages mention. */
  datatype Handler =
    | SingleUpload(fieldName: string)
    | MultipleUpload(fieldName: string, maxCount: nat)
    | MixedUpload

  /** Either the request goes on to the next handler, or it is answered with a failure body. */
  datatype Outcome = Proceed | Respond(status: int, error: string, message: string)

  /** The completion callback of uploadSingle, uploadMultiple and uploadMixed. */
  function Classify(handler: Handler, err: Option<UploadError>): (r: Outcome)
    ensures err.None? <==> r.Proceed?
    ensures r.Respond? ==> r.status == 400
    ensures err.Some? && err.value.MulterError? && err.value.code == "LIMIT_FILE_SIZE" ==> r.Respond? && r.error == "FILE_TOO_LARGE"
    ensures err.Some? && err.value.MulterError? && err.value.code == "LIMIT_FILE_COUNT" ==> r.Respond? && r.error == "TOO_MANY_FILES"
    ensures err.Some? && err.value.MulterError? && err.value.code == "LIMIT_UNEXPECTED_FILE" ==> r.Respond? && r.error == "UNEXPECTED_FIELD"
    ensures err.Some? && err.value.MulterError? && err.value.code !in {"LIMIT_FILE_SIZE", "LIMIT_FILE_COUNT", "LIMIT_UNEXPECTED_FILE"}
      ==> r.Respond? && r.error == "UPLOAD_ERROR" && r.message == "Upload error: " + err.value.message
    ensures err.Some? && err.value.OtherError? ==> r == Respond(400, "INVALID_FILE_TYPE", err.value.message)
  {
    match err
    case None => Proceed
    case Some(OtherError(message)) => Respond(400, "INVALID_FILE_TYPE", message)
    case Some(MulterError(code, message)) =>
      if code == "LIMIT_FILE_SIZE" then Respond(400, "FILE_TOO_LARGE", SizeMessage(handler))
      else if code == "LIMIT_FILE_COUNT" then Respond(400, "TOO_MANY_FILES", CountMessage(handler))
      else if code == "LIMIT_UNEXPECTED_FILE" then Respond(400, "UNEXPECTED_FIELD", FieldMessage(handler))
      else Respond(400, "UPLOAD_ERROR", "Upload error: " + message)
  }

  function SizeMessage(handler: Handler): string
  {
    if handler.SingleUpload? then "File too large. Maximum size is 10MB."
    else "One or more files are too large. Maximum size is 10MB per file."
  }

  function CountMessage(handler: Handler): string
  {
    match handler
    case SingleUpload(_) => "Too many files. Maximum is 5 files."
    case MultipleUpload(_, maxCount) => "Too many files. Maximum is " + NatToString(maxCount) + " files."
    case MixedUpload => "Too many files for one or more fields."
  }

  function FieldMessage(handler: Handler): string
  {
    match handler
    case SingleUpload(fieldName) => "Unexpected field. Expected field name: " + fieldName
    case MultipleUpload(fieldName, _) => "Unexpected field. Expected field name: " + fieldName
    case MixedUpload => "Unexpected field in upload."
  }

  /** The three factories differ only in their messages: whether a request proceeds, the status
      and the error code depend on the error alone. */
  lemma ClassifyIgnoresHandler(h1: Handler, h2: Handler, err: Option<UploadError>)
    ensures Classify(h1, err).Proceed? <==> Classify(h2, err).Proceed?
    ensures Classify(h1, err).Respond? ==>
      Classify(h1, err).status == Classify(h2, err).status && Classify(h1, err).error == Classify(h2, err).error
  {
  }

  /** One value of a fields upload: a list of files, or something else. */
  datatype FieldValue = FileList(files: seq<BlobStorage.UploadedFile>) | NotAList

  /** The shape of `files` on a request: absent, an array (array upload) or an object keyed by
      field name (fields upload), whose entries are listed in the order `Object.values` visits
      them. */
  datatype FilesField =
    | NoFiles
    | FileArray(files: seq<BlobStorage.UploadedFile>)
    | FieldMap(entries: seq<(string, FieldValue)>)

  /** The parts of a request these helpers read. */
  datatype UploadRequest = UploadRequest(
    file: Option<BlobStorage.UploadedFile>,
    files: FilesField,
    submissionText: Option<string>)

  /** hasFiles: a single file, or a files value with a positive length; an object keyed by field
      name has no length and so does not count. */
  predicate HasFiles(req: UploadRequest)
  {
    req.file.Some? || (req.files.FileArray? && |req.files.files| > 0)
  }

  /** The files of the list-valued entries of a field map, in entry order. */
  function FieldFiles(entries: seq<(string, FieldValue)>): (r: seq<BlobStorage.UploadedFile>)
    ensures entries == [] ==> r == []
  {
    if entries == [] then []
    else
      var last := entries[|entries| - 1].1;
      FieldFiles(entries[..|entries| - 1]) + (if last.FileList? then last.files else [])
  }

  /** A file is collected from a field map exactly when some list entry holds it. */
  lemma {:induction false} FieldFilesMembers(entries: seq<(string, FieldValue)>, f: BlobStorage.UploadedFile)
    ensures f in FieldFiles(entries) <==>
      exists k :: 0 <= k < |entries| && entries[k].1.FileList? && f in entries[k].1.files
  {
    if entries != [] {
      var init := entries[..|entries| - 1];
      FieldFilesMembers(init, f);
      if f in FieldFiles(entries) && f !in FieldFiles(init) {
        var k := |entries| - 1;
        assert entries[k].1.FileList? && f in entries[k].1.files;
      }
      if exists k :: 0 <= k < |entries| && entries[k].1.FileList? && f in entries[k].1.files {
        var k :| 0 <= k < |entries| && entries[k].1.FileList? && f in entries[k].1.files;
        if k < |entries| - 1 {
          assert init[k] == entries[k];
        }
      }
    }
  }

  /** getUploadedFiles as a value: the single file, else the array as is, else the files of a
      field map, else nothing. */
  function UploadedFilesOf(req: UploadRequest): seq<BlobStorage.UploadedFile>
  {
    if req.file.Some? then [req.file.value]
    else match req.files
      case FileArray(files) => files
      case FieldMap(entries) => FieldFiles(entries)
      case NoFiles => []
  }

  /** getUploadedFiles: collects the list-valued entries of a field map one by one. */
  method GetUploadedFiles(req: UploadRequest) returns (files: seq<BlobStorage.UploadedFile>)
    ensures files == UploadedFilesOf(req)
  {
    if req.file.Some? {
      return [req.file.value];
    }
    if req.files.FileArray? {
      return req.files.files;
    }
    if req.files.FieldMap? {
      var entries := req.files.entries;
      files := [];
      var i := 0;
      while i < |entries|
        invariant 0 <= i <= |entries|
        invariant files == FieldFiles(entries[..i])
      {
        assert entries[..i + 1][..i] == entries[..i];
        if entries[i].1.FileList? {
          files := files + entries[i].1.files;
        }
        i := i + 1;
      }
      assert entries[..|entries|] == entries;
      return files;
    }
    return [];
  }

  /** Whenever hasFiles holds there is a file to collect; outside a fields upload the converse
      holds too. */
  lemma HasFilesCollects(req: UploadRequest)
    ensures HasFiles(req) ==> |UploadedFilesOf(req)| > 0
    ensures !req.files.FieldMap? ==> (HasFiles(req) <==> |UploadedFilesOf(req)| > 0)
  {
  }

  /** A fields upload that carries files still reports no files. */
  lemma FieldMapNotCounted(f: BlobStorage.UploadedFile)
    ensures var req := UploadRequest(None, FieldMap([("attachments", FileList([f]))]), None);
      !HasFiles(req) && UploadedFilesOf(req) == [f]
  {
    var entries := [("attachments", FileList([f]))];
    assert entries[..0] == [];
  }

  /** The answer of validateFileRequirements. */
  datatype Requirement = Satisfied | Unsatisfied(error: string)

  const TextRequiredMessage := "Text submission is required for this assignment."
  const FileRequiredMessage := "File submission is required for this assignment."
  const EitherRequiredMessage := "Either text or file submission is required for this assignment."

  /** validateFileRequirements: 'text' needs text that is not blank, 'file' needs hasFiles,
      'both' needs either one; any other format passes. */
  function ValidateFileRequirements(req: UploadRequest, format: SubmissionFormat): (r: Requirement)
    ensures r.Unsatisfied? ==>
      r.error == TextRequiredMessage || r.error == FileRequiredMessage || r.error == EitherRequiredMessage
    ensures format.UnknownFormat? ==> r.Satisfied?
  {
    var hasText := SubmissionRules.HasText(req.submissionText);
    var hasFiles := HasFiles(req);
    match format
    case TextFormat => if !hasText then Unsatisfied(TextRequiredMessage) else Satisfied
    case FileFormat => if !hasFiles then Unsatisfied(FileRequiredMessage) else Satisfied
    case BothFormats => if !hasText && !hasFiles then Unsatisfied(EitherRequiredMessage) else Satisfied
    case UnknownFormat(_) => Satisfied
  }

  /** On the three known formats the middleware check and the service's format rule agree,
      when the service sees a non-empty attachment list exactly when hasFiles holds. */
  lemma RequirementsAgreeWithService(req: UploadRequest, format: SubmissionFormat,
                                     attachments: Option<seq<SubmissionAttachment>>)
    requires !format.UnknownFormat?
    requires SubmissionRules.HasFiles(attachments) <==> HasFiles(req)
    ensures ValidateFileRequirements(req, format).Satisfied? <==>
      SubmissionRules.FormatCheck(format, SubmissionRules.HasText(req.submissionText),
                                  SubmissionRules.HasFiles(attachments)).None?
  {
  }

  /** An unknown format is where the two differ: the middleware lets it through and the service
      refuses it. */
  lemma UnknownFormatDiverges(req: UploadRequest, name: string, attachments: Option<seq<SubmissionAttachment>>)
    ensures ValidateFileRequirements(req, UnknownFormat(name)).Satisfied?
    ensures SubmissionRules.FormatCheck(UnknownFormat(name), SubmissionRules.HasText(req.submissionText),
                                        SubmissionRules.HasFiles(attachments)) == Some(InvalidSubmissionFormat)
  {
  }

  /** Text that is only whitespace does not satisfy a 'text' assignment. */
  lemma BlankTextRefused(req: UploadRequest)
    requires req.submissionText.Some? && IsBlank(req.submissionText.value)
    ensures ValidateFileRequirements(req, TextFormat).Unsatisfied?
  {
    SubmissionRules.HasTextIffNotBlank(req.submissionText);
  }
}
